=== FILE: README.md ===
# statemachine: a Dafny model of the event-driven state machine core

This project models the core of the Go library `statemachine`. Its parts:

- a finite state machine whose rules are declared with a fluent builder (`From(s).On(event).When(guard).To(d)`);
- a registry of one typed handler per event kind;
- a dispatch function (`Execute`). It validates the event against the current state's rules, checks the handler's type, runs the pre-transition middlewares, the handler and the post-transition middlewares, and then commits the new state optimistically;
- an orphan check, which reports rules whose event kind has no handler, for one machine or for a map of named machines;
- `Pipe`, which threads a machine through a chain of transforms;
- construction options that set the middleware lists.

The Go machine is a mutex-guarded pointer. Here a machine is an immutable record, and each mutating call returns the updated record.

- **Guards, middlewares and handler bodies** are oracles. They are function fields of `Exec.Oracles`, keyed by an identity number, and the proofs hold for every oracle.
- **Go's type assertion** `handler.(Handler[T])` fails in two ways. The entry may have been registered for another event type that reports the same kind (`HandlerTag.typeId` against `EventType.typeId`). Or the entry may be nil: a nil handler value, `var h Handler[T]`, registers as a nil `any`. Handler identity `NilHandler` (0) stands for that value.
- **Another goroutine's commit** between validation and commit is the `live` parameter of `Execute`: the state found when the lock is taken again.
- **Go's unspecified map iteration order** is an explicit input (`order`, `names`), constrained to list every key exactly once (`Common.EnumeratesKeys`).

Modules, in dependency order:

| module | file | models |
|---|---|---|
| `Common` | common.dfy | Option/Result/Outcome, duplicate-free key enumerations |
| `GoFmt` | gofmt.dfy | Go's `fmt.Errorf` applied to a format string with no operands |
| `Fsm` | state.dfy | data model, builder, `findValidTransition` |
| `OrphanScan` | orphan_scan.dfy | the method `(*StateMachine).FindOrphanTransitions` |
| `Registry` | register.dfy | `RegisterHandler` |
| `Exec` | exec.dfy | `Execute` |
| `Orphans` | orphans.dfy | the report functions of oprhans.go |
| `Compose` | pipe.dfy | `Pipe` |
| `Options` | options.dfy | `applyOptions` and the two middleware options |
| `Scenarios` | scenarios.dfy | the example program and the test fixtures, replayed |

## Where the tests and the code disagree

The model follows the code.

- **Re-registering a kind.** state_test.go:459-482, 522-545 and 599-614 expect "invalid handler type" after a kind is registered twice. Registration overwrites the map entry, and the entry is recorded for the same event type, so the type check passes for the non-nil handlers these tests register. `Exec.DispatchUsesLatestRegistration` proves this for every input, and `Scenarios.ReRegistrationDispatchesLatest` shows it for the fixture.
- **Reset to an undeclared state.** state_test.go:547-570 expects a dispatch from the overwritten state "Changed" to succeed. That state has no rules, so the code reports "no transitions defined" (`Scenarios.DispatchFromUndeclaredStateFails`).
- **Batch orphan report.** state_test.go:643 expects the batch orphan check to list every machine that has orphans. The code returns only the first report it meets. See "## Findings".
- **The middleware lists.** exec.go:36 and 45 and options.go:16 and 22 read and write `sm.mw`, but the `StateMachine` struct in state.go:32-37 declares no such field. The model gives the machine two lists, `pre` and `post`, which is what those lines evidently mean.

## Model

| member | source | states |
|---|---|---|
| Fsm.NewStateMachine | state.go:47-54 | A new machine is in the given state, with no rules, no handlers and no middlewares, and is well formed |
| Fsm.From | state.go:56-62 | A builder starts at the given source state, with no event kind and no guard yet |
| Fsm.On | state.go:64-68 | `On` records the event's kind and keeps the builder's source and guard |
| Fsm.When | state.go:70-74 | `When` records the guard and keeps the builder's source and kind |
| Fsm.To | state.go:76-90 | Declaring appends one rule, carrying the builder's source, kind and guard, at the end of the source state's list (a missing list counts as empty). The source state is then listed; no other state's list, the current state, the handlers or the middlewares change |
| Fsm.ChainedToFilesBoth | state.go:76-90 | `To` returns its builder, so a second `To` on it files a second rule with the same source, kind and guard after the first |
| Fsm.DeclareAppendsRule | state.go:56-90 | The whole chain `From(s).On(e).To(d)` files an unguarded rule of e's kind at the end of s's list and touches nothing else |
| Fsm.LastGuardWins | state.go:70-74 | Of two `When` calls before `To`, only the later guard is stored |
| Fsm.ToPreservesWellFormed | state.go:88 | After any declaration, every listed state still has at least one rule, and every rule is filed under its own source |
| Fsm.FirstMatch | state.go:99-105 | The index returned is that of an eligible rule with no eligible rule before it; None means no rule of the list is eligible |
| Fsm.FirstMatchIsUnique | state.go:99-105 | There is at most one first eligible rule, so the scan's answer is determined |
| Fsm.FindValidTransition | state.go:92-108 | "No transitions defined" exactly when the current state has no rule list. "No valid transition" exactly when it has one but no rule is eligible (same kind, and no guard or the guard accepts). Otherwise the result is the first eligible rule in declaration order |
| OrphanScan.OrphansIn | state.go:158-166 | The orphans of one list are exactly the copies, re-filed under the visited state, of the rules whose kind has no handler |
| OrphanScan.CollectOrphans | state.go:156-169 | The scan over a visit order yields exactly the orphans of the visited states' lists |
| OrphanScan.FindOrphanTransitions | state.go:151-170 | A rule is reported exactly when it is the re-filed copy of a declared rule whose kind has no handler. The list is empty exactly when every declared rule's kind has a handler |
| OrphanScan.OrphansKeepDeclarationOrder | state.go:157-158 | Whatever the map's visit order, the orphans of one source state, picked out of the result, are exactly that state's unhandled rules in declaration order |
| OrphanScan.OrphansOfOneStateAreContiguous | state.go:151-170 | The orphans of the state visited k-th form one contiguous block of the result, between those of the states visited before it and those visited after it |
| OrphanScan.OrphansIndependentOfOrder | state.go:157 | Two visit orders of the same map yield the same orphans with the same multiplicities; only their order can differ |
| OrphanScan.CollectPermutation | state.go:157-168 | Any two duplicate-free orders over the same set of states give equal orphan multisets |
| Registry.RegisterHandler | register.go:4-11 | After registration the entry for the event type's kind is the new handler, tagged with that event type. No other kind's entry, the rules, the state or the middlewares change |
| Registry.RegisterIdempotent | register.go:9 | Registering the same handler twice is the same as registering it once |
| Registry.LastRegistrationWins | register.go:9 | A second registration for the same kind replaces the first completely |
| Registry.DistinctKindsCommute | register.go:9 | Registrations for different kinds can be made in either order |
| Registry.RegisterCommutesWithTo | register.go:4-11 | A registration made while a rule is being declared is kept: filing a rule and registering a handler commute |
| Registry.RegisterPreservesWellFormed | register.go:4-11 | Registration keeps the rule table well formed |
| Registry.RegisterRemovesOrphansOfKind | register.go:9 | Registering a kind removes exactly the orphans of that kind from the orphan list, keeping the others in order |
| Exec.RunHooks | exec.go:36-40 | Middlewares run in list order and stop at the first failure. No failure exactly when all pass, and then all ran; otherwise the one that failed is the first failing one and its error is reported. When the first failure is at position i, exactly i + 1 middlewares ran |
| Exec.FailsFirstAtIsUnique | exec.go:36-49 | A middleware list has at most one first failure |
| Exec.LookupHandler | exec.go:21-34 | The handler is found exactly when its kind is registered, the entry is not nil, and it was registered for the dispatched event's own type. A missing kind gives "no handler registered", any other failure "invalid handler type" |
| Exec.Execute | exec.go:8-61 | Only the current state is ever written. A validation error comes back with nothing run. Then a lookup error. Then the first failing pre-middleware's own error, with the handler skipped. Then a handler error, wrapped. Then the first failing post-middleware's error, after the handler ran. Then the commit: success to the selected rule's target if the state is still the one validated, otherwise "concurrent modification" |
| Exec.ExecuteSucceedsIff | exec.go:8-61 | A dispatch succeeds exactly when the current state has an eligible rule, the kind's handler is not nil and was registered for this event type, every middleware and the handler pass, and no commit happened in between. It then lands on the first eligible rule's target |
| Exec.HandlerFailureKeepsState | exec.go:41-43 | When the kind's handler fails, the dispatch reports an error and leaves the machine unchanged, whether or not it got as far as running it |
| Exec.SequentialFailureKeepsMachine | exec.go:8-61 | Without an interleaved commit, every failed dispatch leaves the machine exactly as it was |
| Exec.ExecutePreservesWellFormed | exec.go:59 | Dispatch keeps the rule table well formed |
| Exec.SoleRuleFiresIffGuardAccepts | exec.go:11-19 | For a rule that is the only one of its kind from the current state, and an otherwise passing pipeline, the dispatch lands on its target exactly when the guard is absent or accepts. Otherwise it fails "no valid transition" with the machine unchanged |
| Exec.DispatchUsesLatestRegistration | exec.go:21-34 | After two registrations for the dispatched event's type, only the later handler can run and "no handler registered" cannot occur. "Invalid handler type" occurs exactly when the later handler is nil and validation passes |
| Exec.NilHandlerIsInvalid | exec.go:21-34 | A nil handler registered for the event's own type is found under its kind, but once validation passes the dispatch fails "invalid handler type", runs nothing and leaves the machine as it was |
| Orphans.Kinds | oprhans.go:23-26 | One kind per rule, in rule order |
| Orphans.FindOrphanTransitions | oprhans.go:12-29 | No report exactly when the machine has no orphans. Otherwise the report is the name, the header line, then one line per orphan's kind |
| Orphans.KindLines | oprhans.go:23-26 | The kind lines are empty exactly when there are no orphans. Read back as lines, they give the orphans' kinds, in order, duplicates kept. They hold no `%` when no kind does |
| Orphans.FormattedOrphanError | oprhans.go:12-29 | The error as returned, after the built text passes through `fmt.Errorf` as a format string: nil exactly when the machine has no orphans, and equal to the built text whenever neither the name nor any kind holds a `%` |
| Orphans.PercentInNameGarblesReport | oprhans.go:28 | For a name ending in `%` the returned error differs from the built text: the `%`, the space and the `h` of "has" become `%!h(MISSING)` |
| GoFmt.Render | oprhans.go:28 | What `fmt.Errorf(text)` returns with no operands: empty exactly for an empty format; a format without `%` is printed unchanged; every prefix free of `%` is copied to the front of the output; a leading `%` always gives output starting with `%`. The directive cases are stated by GoFmt.EscapedPercent and GoFmt.MissingOperand |
| GoFmt.Directive | oprhans.go:28 | One directive after a `%` (flags, argument index, width, precision, verb) is rendered as a note starting with `%`; it takes at least one character unless the format ends first, in which case it takes the rest |
| GoFmt.RenderPlain | oprhans.go:28 | A format string without `%` is printed unchanged |
| GoFmt.RenderAfterPlainText | oprhans.go:28 | Text before the first `%` is copied, and the rest is read on its own |
| GoFmt.EscapedPercent | oprhans.go:28 | `%%` prints one `%` |
| GoFmt.MissingOperand | oprhans.go:28 | `%`, a space flag and a lower-case verb with no operand print `%!`, the verb and `(MISSING)` |
| Orphans.ReportLines | oprhans.go:20-28 | When names and kinds contain no line break, a report is its header line followed by exactly one line per orphan, so it has one more line than there are orphans |
| Orphans.FirstOrphaned | oprhans.go:32-38 | The position returned is the first machine, in visit order, that has orphans, and all machines before it have none |
| Orphans.FindOrphansTransitions | oprhans.go:31-40 | As written: no report exactly when no machine in the map has orphans. Otherwise the report of the first machine, in visit order, that has orphans, and nothing else |
| Orphans.AggregateOrphanReports | oprhans.go:31-40 | Corrected batch check: no report exactly when no machine has orphans |
| Orphans.AggregateIsReportsInVisitOrder | oprhans.go:31-40 | The corrected batch report, pinned down whole: nil when no machine has orphans, otherwise exactly the reports of the machines that have orphans, concatenated in visit order, with nothing else |
| Orphans.AggregateListsEveryOrphanedMachine | oprhans.go:31-40 | The corrected batch report contains the whole report of every machine that has orphans |
| Orphans.FirstReportIsPrefixOfAggregate | oprhans.go:31-40 | What the code as written returns is a prefix of the corrected report: the later machines' reports are what it loses |
| Compose.Pipe | pipe.go:3-8 | No transforms leave the machine as it is; otherwise the last transform is applied to what the others produced |
| Compose.PipeSingle | pipe.go:3-8 | Piping through one transform is applying it |
| Compose.PipeTwo | pipe.go:3-8 | Transforms apply left to right |
| Compose.PipeAppend | pipe.go:3-8 | Piping through a concatenation is piping through the first part, then the second |
| Compose.AddRule | state_test.go:433-436 | A transform that declares `From(s).On(e).To(d)` appends that unguarded rule to s's list and keeps the state and the handlers |
| Compose.AddRuleThenSelect | state.go:92-108 | A rule just appended to the current state's list is selected when no earlier rule of that list is eligible |
| Compose.AddedRuleIsSelectable | pipe.go:3-8 | A rule added by the last transform of a pipe is the one a dispatch from its source state selects, when no earlier rule of that state is eligible |
| Options.ApplyOptions | options.go:7-12 | Options apply in list order, each to the machine the previous ones left |
| Options.WithPreTransitionMiddlewares | options.go:14-18 | The option replaces the pre-transition middleware list and changes nothing else |
| Options.WithPostTransitionMiddlewares | options.go:20-24 | The option replaces the post-transition middleware list and changes nothing else |
| Options.ApplyOptionsAppend | options.go:7-12 | Applying more options continues from where the earlier ones left off |
| Options.LaterPreOptionWins | options.go:14-18 | Of two pre-middleware options, the later one decides the list |
| Options.LaterPostOptionWins | options.go:20-24 | Of two post-middleware options, the later one decides the list |
| Options.PreAndPostOptionsCommute | options.go:14-24 | The two options do not interfere: either order sets both lists and nothing else |
| Options.OptionsPreserveWellFormed | options.go:14-24 | Options keep the rule table well formed |
| Scenarios.BasicUsageGoesIdleRunningIdle | basic_usage.go:43-65 | The example program moves Idle to Running, then back to Idle, without error |
| Scenarios.GuardedUnlock | state_test.go:345-374 | With a guard that wants code 1234, code 1111 fails "no valid transition" and stays Locked; code 1234 unlocks |
| Scenarios.LaterGuardBlocks | state_test.go:572-597 | With an accepting guard followed by a rejecting one, dispatch fails "no valid transition" and stays in Start |
| Scenarios.ErrorHandling | state_test.go:376-407 | A declared kind without a handler fails "no handler registered" with the machine unchanged. A handled kind moves on. From a state without rules, dispatch fails "no transitions defined" |
| Scenarios.FailedHandlerKeepsState | state_test.go:484-503 | A failing handler gives "handler execution failed" and the state stays Initial |
| Scenarios.ReRegistrationDispatchesLatest | state_test.go:459-482 | Two registrations for one event type, then dispatch: success, running the second handler (the test expects "invalid handler type") |
| Scenarios.DispatchFromUndeclaredStateFails | state_test.go:547-570 | After the state is overwritten with one that has no rules, dispatch fails "no transitions defined" (the test expects success) |
| Scenarios.SelfLoopKeepsState | state_test.go:315-343 | With self-loops on Idle for two kinds, both dispatches succeed and leave the machine as it was |
| Scenarios.PipedMachineSelectsAddedRule | state_test.go:429-457 | A rule added by a piped transform is the one selected from the base state |
| Scenarios.PipeAddedRuleFires | state_test.go:429-457 | After piping and registering, dispatch lands on "AddedByMiddleware" |
| Scenarios.OneOrphanFound | state_test.go:409-427 | Exactly the unhandled rule Start to OrphanState is reported |
| Scenarios.BatchReturnsFirstReportOnly | state_test.go:616-647 | Visiting SM1, SM2, SM3 in that order, the code returns only SM2's report, which is not the expected text |
| Scenarios.AggregateMatchesFixture | state_test.go:643 | Visiting SM1, SM2, SM3 in that order, the corrected batch check returns exactly the text the test expects |

## Left out

- Locks (`sync.RWMutex`) are left out. The model is a value, and the only interleaving it represents is a commit by another dispatch between validation and commit, as the `live` parameter of `Exec.Execute`.
- Exec.Execute: validation and handler lookup see the same machine. Go takes the lock separately for each, so a registration made by another goroutine between the two is not modelled.
- `context.Context` is left out. It is only passed through to guards, middlewares and handlers, which are oracles.
- The oracles are pure functions of (identity, event). A guard, middleware or handler with side effects, or one that answers differently on a second call, is not modelled.
- Handler side effects are not modelled; only their pass or fail outcome is.
- Error texts built with `fmt.Errorf` are one `Fsm.Error` variant per error site, not formatted strings. A middleware's error is `HookFailed` carrying its own value unchanged, and a handler's is wrapped as `HandlerExecutionFailed`. The orphan reports are modelled as strings, because their text is the observable result.
- Orphans.FindOrphanTransitions: gives the text the Go function builds, which is the text it returns only when neither the name nor any kind holds a `%`. Go passes the built text to `fmt.Errorf` as a format string; `Orphans.FormattedOrphanError` models that, and "## Findings" records the difference.
- Orphans.FindOrphansTransitions: returns the reports as built, before `fmt.Errorf` reads them as format strings.
- GoFmt: characters stand for runes. Invalid UTF-8 in a format string, and directives with operands, are not modelled; the format strings here have no operands.
- `GetCurrentState` (state.go:110-115) is the read lock plus a field read. It is the field `state` of the record.
- `GenerateDOT` (state.go:117-149) is rendering for display, not state machine behaviour, and is not part of this model.
- The `OrphanFinder` interface (oprhans.go:8-10) declares a method signature and has no behaviour.
- Go's map iteration order is unspecified. It is an input (`order` to the orphan scan, `names` to the batch check), and the lemmas hold for every enumeration of the keys.
- Event payloads are a single integer, which is enough for the guards of the fixtures. Events carry no other data.
- Compose.Pipe: Go passes pointers, so a transform may mutate the machine it receives and still return a different one; the caller's original machine then changes too. The model's transforms are pure functions, so that aliasing is not modelled.
- Fsm.To: the Go builder holds a pointer to its machine and `To` writes through it, so several builders of one machine see each other's rules. Here the machine is an argument of `To`, and a builder holds only the source, kind and guard.
- Exec.DispatchUsesLatestRegistration: no longer promises that re-registration never gives "invalid handler type". A nil later handler does give it, as the type assertion at exec.go:31 fails on a nil entry; the lemma states exactly when.
- Fsm.On: Go's `On` sets the kind on the builder it is called on and returns that same builder, so a handle kept from before the call sees the new kind. Here builders are values: a builder kept from before `On` does not see its update. Every call site in the library, its tests and its example is a single chain, where the two agree.
- Fsm.When: likewise, Go's `When` sets the guard on its receiver in place. A builder kept from before `When` does not see the guard here, while in Go a later `To` on that handle would file the rule with it.
- Registry.RegisterHandler: Go takes the kind from the zero value of the event type, `var event T; event.EventType()`. The model takes `t.kind`, the kind that zero value reports. An event type whose `EventType` method panics on a zero value (a nil pointer receiver) is not modelled.
- Options.ApplyOptions: Go's options mutate the machine in place and return nothing. Here they return the updated machine, which has the same effect.
- The struct field `mw` that exec.go and options.go use is missing from state.go. It is modelled as two lists, `pre` and `post`, on the machine.

## Findings

| source | as written | input that shows it | evidently intended | confidence | as-written member | corrected member |
|---|---|---|---|---|---|---|
| oprhans.go:31-40 | The batch check returns the first non-nil report it meets in map order and stops, so the reports of the other machines with orphans are lost. The result also depends on Go's random map order | The fixture of state_test.go:616-647: machines SM1 (clean), SM2 (one orphan), SM3 (two orphans), visited SM1, SM2, SM3. The result is SM2's report alone | The reports of every machine with orphans, concatenated in visit order. The test's text at state_test.go:643 is what this gives when SM2 is visited before SM3 | medium; not executed | Orphans.FindOrphansTransitions (shown by Scenarios.BatchReturnsFirstReportOnly) | Orphans.AggregateOrphanReports (proved by Orphans.AggregateIsReportsInVisitOrder, Orphans.AggregateListsEveryOrphanedMachine and Scenarios.AggregateMatchesFixture) |
| oprhans.go:28 | The built report is passed to `fmt.Errorf` as its format string, so any `%` in a machine name or event kind is read as a directive | A machine named "100%" with one orphan of kind E: the error reads "100%!h(MISSING)as orphan transitions:" then the line E, not "100% has orphan transitions:" then E | `fmt.Errorf("%s", text)` or `errors.New(text)`, which return the built text unchanged | high; not executed | Orphans.FormattedOrphanError (shown by Orphans.PercentInNameGarblesReport) | Orphans.FindOrphanTransitions (proved by Orphans.KindLines and Orphans.ReportLines) |

=== FILE: common.dfy ===
/**
 * Small value types shared by the whole model: an optional value, a
 * value-or-error result, a pass/fail outcome, and what it means for a
 * sequence to enumerate the keys of a map (one possible order in which Go's
 * `range` visits a map).
 */
module Common {

  /** A value that may be absent (Go's nil pointer or nil error). */
  datatype Option<T> = None | Some(value: T)

  /** A value or the error that prevented it (Go's `(T, error)` pair). */
  datatype Result<T, E> = Ok(value: T) | Err(error: E)

  /** What a collaborator that only returns an `error` reported. */
  datatype Outcome<E> = Pass | Fail(error: E)

  /** No element occurs twice in `s`. */
  predicate Distinct<T(==)>(s: seq<T>) {
    forall i, j :: 0 <= i < j < |s| ==> s[i] != s[j]
  }

  /**
   * `order` lists every key of `m`, and nothing else, exactly once. Go's
   * `range` over a map visits the keys in an unspecified order; the model
   * takes that order as an input satisfying this predicate.
   */
  predicate EnumeratesKeys<K, V>(order: seq<K>, m: map<K, V>) {
    && (forall k :: k in m ==> k in order)
    && (forall i :: 0 <= i < |order| ==> order[i] in m)
    && Distinct(order)
  }
}

=== FILE: exec.dfy ===
/**
 * The dispatch pipeline (exec.go): validate, look up the handler, check its
 * capability, run the pre-hooks, the handler and the post-hooks, then commit
 * optimistically.
 *
 * Guards, hooks and handler bodies are oracles. Another dispatch may commit
 * while this one runs hooks and the handler without the lock; `live` is the
 * state this dispatch finds when it re-acquires the lock to commit.
 */
module Exec {
  import opened Common
  import opened Fsm
  import opened Registry

  /** What the guard, hook and handler functions answer for an event. */
  datatype Oracles = Oracles(
    guard: GuardOracle,
    hook: (HookId, Event) -> Outcome<Cause>,
    run: (HandlerTag, Event) -> Outcome<Cause>)

  /** How far a dispatch got: pre-hooks run, the handler run (if any), post-hooks run. */
  datatype Ran = Ran(pre: nat, handler: Option<HandlerTag>, post: nat)

  /** The error (None for success), the machine as the dispatch leaves it, and what ran. */
  datatype Dispatch = Dispatch(err: Option<Error>, machine: Machine, ran: Ran)

  const NothingRan := Ran(0, None, 0)

  /** How many hooks of a list ran, and the failure that stopped them. */
  datatype HookRun = HookRun(ran: nat, failure: Option<Cause>)

  predicate AllPass(hooks: seq<HookId>, e: Event, hook: (HookId, Event) -> Outcome<Cause>) {
    forall i :: 0 <= i < |hooks| ==> hook(hooks[i], e).Pass?
  }

  /** `hooks[i]` fails and every hook before it passes. */
  predicate FailsFirstAt(hooks: seq<HookId>, e: Event, hook: (HookId, Event) -> Outcome<Cause>, i: int) {
    && 0 <= i < |hooks|
    && hook(hooks[i], e).Fail?
    && forall j :: 0 <= j < i ==> hook(hooks[j], e).Pass?
  }

  /** Runs hooks in order and stops at the first failure. */
  function RunHooks(hooks: seq<HookId>, e: Event, hook: (HookId, Event) -> Outcome<Cause>): (r: HookRun)
    ensures r.failure.None? <==> AllPass(hooks, e, hook)
    ensures r.failure.None? ==> r.ran == |hooks|
    ensures r.failure.Some? ==>
      FailsFirstAt(hooks, e, hook, r.ran - 1) && hook(hooks[r.ran - 1], e) == Fail(r.failure.value)
    ensures forall i :: FailsFirstAt(hooks, e, hook, i) ==> r == HookRun(i + 1, Some(hook(hooks[i], e).error))
  {
    if |hooks| == 0 then HookRun(0, None)
    else match hook(hooks[0], e)
      case Fail(c) => HookRun(1, Some(c))
      case Pass =>
        var rest := RunHooks(hooks[1..], e, hook);
        assert forall i :: 1 <= i < |hooks| ==> hooks[i] == hooks[1..][i - 1];
        HookRun(rest.ran + 1, rest.failure)
  }

  lemma FailsFirstAtIsUnique(hooks: seq<HookId>, e: Event, hook: (HookId, Event) -> Outcome<Cause>, i: int, j: int)
    requires FailsFirstAt(hooks, e, hook, i) && FailsFirstAt(hooks, e, hook, j)
    ensures i == j
  {
  }

  /**
   * Handler lookup and the capability check: Go's type assertion
   * `handler.(Handler[T])` succeeds exactly when the entry is not nil and was
   * registered for the dispatched event's own type.
   */
  function LookupHandler(m: Machine, e: Event): (r: Result<HandlerTag, Error>)
    ensures r.Ok? <==>
      && e.ty.kind in m.handlers
      && m.handlers[e.ty.kind].typeId == e.ty.typeId
      && m.handlers[e.ty.kind].handler != NilHandler
    ensures r.Ok? ==> r.value == m.handlers[e.ty.kind]
    ensures r == Err(NoHandlerRegistered(e.ty.kind)) <==> e.ty.kind !in m.handlers
    ensures r.Err? ==> r.error in {NoHandlerRegistered(e.ty.kind), InvalidHandlerType(e.ty.kind)}
  {
    if e.ty.kind !in m.handlers then Err(NoHandlerRegistered(e.ty.kind))
    else if m.handlers[e.ty.kind].typeId != e.ty.typeId || m.handlers[e.ty.kind].handler == NilHandler then
      Err(InvalidHandlerType(e.ty.kind))
    else Ok(m.handlers[e.ty.kind])
  }

  /** Validation and handler lookup both succeed. */
  predicate Ready(m: Machine, e: Event, o: Oracles) {
    FindValidTransition(m, e, o.guard).Ok? && LookupHandler(m, e).Ok?
  }

  /** Ready, and the pre-hooks and the handler pass. */
  predicate HandlerPassed(m: Machine, e: Event, o: Oracles) {
    && Ready(m, e, o)
    && AllPass(m.pre, e, o.hook)
    && o.run(LookupHandler(m, e).value, e).Pass?
  }

  /**
   * One dispatch. `d.machine` shows another dispatch's commit (the `live`
   * state) only on the path that checks for one, the final commit; every
   * earlier failure returns the machine as validated, `m`.
   */
  function Execute(m: Machine, e: Event, o: Oracles, live: State): (d: Dispatch)
    // Only the current state is ever written.
    ensures d.machine == m.(state := d.machine.state)
    // A failed validation is returned as is: nothing runs, nothing changes.
    ensures FindValidTransition(m, e, o.guard).Err? ==>
      d == Dispatch(Some(FindValidTransition(m, e, o.guard).error), m, NothingRan)
    // Validation comes first; then a missing or incapable handler fails the same way.
    ensures FindValidTransition(m, e, o.guard).Ok? && LookupHandler(m, e).Err? ==>
      d == Dispatch(Some(LookupHandler(m, e).error), m, NothingRan)
    // The first failing pre-hook's error is returned unchanged; later hooks and the handler are skipped.
    ensures Ready(m, e, o) ==> forall i :: FailsFirstAt(m.pre, e, o.hook, i) ==>
      d == Dispatch(Some(HookFailed(o.hook(m.pre[i], e).error)), m, Ran(i + 1, None, 0))
    // A failing handler is wrapped; post-hooks are skipped and the state is kept.
    ensures Ready(m, e, o) && AllPass(m.pre, e, o.hook) && o.run(LookupHandler(m, e).value, e).Fail? ==>
      d == Dispatch(Some(HandlerExecutionFailed(o.run(LookupHandler(m, e).value, e).error)), m,
                    Ran(|m.pre|, Some(LookupHandler(m, e).value), 0))
    // A failing post-hook's error is returned unchanged, although the handler ran.
    ensures HandlerPassed(m, e, o) ==> forall i :: FailsFirstAt(m.post, e, o.hook, i) ==>
      d == Dispatch(Some(HookFailed(o.hook(m.post[i], e).error)), m,
                    Ran(|m.pre|, Some(LookupHandler(m, e).value), i + 1))
    // Commit: only if the live state is still the one validated against.
    ensures HandlerPassed(m, e, o) && AllPass(m.post, e, o.hook) ==>
      && d.ran == Ran(|m.pre|, Some(LookupHandler(m, e).value), |m.post|)
      && (live == m.state ==> d.err.None? && d.machine.state == FindValidTransition(m, e, o.guard).value.to)
      && (live != m.state ==> d.err == Some(ConcurrentModification) && d.machine.state == live)
  {
    match FindValidTransition(m, e, o.guard)
    case Err(err) => Dispatch(Some(err), m, NothingRan)
    case Ok(rule) =>
      var snapshot := m.state;
      match LookupHandler(m, e)
      case Err(err) => Dispatch(Some(err), m, NothingRan)
      case Ok(h) =>
        var pre := RunHooks(m.pre, e, o.hook);
        if pre.failure.Some? then
          Dispatch(Some(HookFailed(pre.failure.value)), m, Ran(pre.ran, None, 0))
        else match o.run(h, e)
          case Fail(cause) => Dispatch(Some(HandlerExecutionFailed(cause)), m, Ran(|m.pre|, Some(h), 0))
          case Pass =>
            var post := RunHooks(m.post, e, o.hook);
            var ran := Ran(|m.pre|, Some(h), post.ran);
            if post.failure.Some? then Dispatch(Some(HookFailed(post.failure.value)), m, ran)
            else if live != snapshot then Dispatch(Some(ConcurrentModification), m.(state := live), ran)
            else Dispatch(None, m.(state := rule.to), ran)
  }

  /**
   * A nil handler registered for the dispatched event's own type is found
   * but fails the type assertion: once validation passes, the dispatch
   * reports "invalid handler type", runs nothing and changes nothing.
   */
  lemma NilHandlerIsInvalid(m: Machine, t: EventType, e: Event, o: Oracles, live: State)
    requires e.ty == t
    ensures var m2 := RegisterHandler(m, t, NilHandler);
      && t.kind in m2.handlers && m2.handlers[t.kind].typeId == e.ty.typeId
      && (FindValidTransition(m2, e, o.guard).Ok? ==>
            Execute(m2, e, o, live) == Dispatch(Some(InvalidHandlerType(t.kind)), m2, NothingRan))
  {
  }

  /** Everything a successful dispatch needs, stated without the pipeline. */
  ghost predicate Accepts(m: Machine, e: Event, o: Oracles, live: State) {
    && m.state in m.transitions
    && (exists i :: IsFirstMatch(m.transitions[m.state], e, o.guard, i))
    && e.ty.kind in m.handlers
    && m.handlers[e.ty.kind].typeId == e.ty.typeId
    && m.handlers[e.ty.kind].handler != NilHandler
    && AllPass(m.pre, e, o.hook)
    && o.run(m.handlers[e.ty.kind], e).Pass?
    && AllPass(m.post, e, o.hook)
    && live == m.state
  }

  /**
   * A dispatch succeeds exactly when the current state has an eligible
   * rule, the handler for the kind is not nil and was registered for this event type, every
   * hook and the handler pass, and no other dispatch committed meanwhile; it
   * then lands on the target of the first eligible rule.
   */
  lemma ExecuteSucceedsIff(m: Machine, e: Event, o: Oracles, live: State)
    ensures Execute(m, e, o, live).err.None? <==> Accepts(m, e, o, live)
    ensures Execute(m, e, o, live).err.None? ==>
      exists i :: IsFirstMatch(m.transitions[m.state], e, o.guard, i)
        && Execute(m, e, o, live).machine.state == m.transitions[m.state][i].to
  {
    var d := Execute(m, e, o, live);
    if Accepts(m, e, o, live) {
      var i :| IsFirstMatch(m.transitions[m.state], e, o.guard, i);
      assert FirstMatch(m.transitions[m.state], e, o.guard).Some?;
    }
    if d.err.None? {
      var rule := FindValidTransition(m, e, o.guard).value;
      var i :| IsFirstMatch(m.transitions[m.state], e, o.guard, i) && rule == m.transitions[m.state][i];
    }
  }

  /** A failing handler never moves the machine, whatever else happens. */
  lemma HandlerFailureKeepsState(m: Machine, e: Event, o: Oracles, live: State)
    requires e.ty.kind in m.handlers && o.run(m.handlers[e.ty.kind], e).Fail?
    ensures Execute(m, e, o, live).machine == m
    ensures Execute(m, e, o, live).err.Some?
  {
    if Ready(m, e, o) && !AllPass(m.pre, e, o.hook) {
      var r := RunHooks(m.pre, e, o.hook);
      assert FailsFirstAt(m.pre, e, o.hook, r.ran - 1);
    }
  }

  /** Without an interleaved commit, a dispatch that fails leaves the machine exactly as it was. */
  lemma SequentialFailureKeepsMachine(m: Machine, e: Event, o: Oracles)
    ensures Execute(m, e, o, m.state).err.Some? ==> Execute(m, e, o, m.state).machine == m
  {
    var d := Execute(m, e, o, m.state);
    if Ready(m, e, o) && !AllPass(m.pre, e, o.hook) {
      var r := RunHooks(m.pre, e, o.hook);
      assert FailsFirstAt(m.pre, e, o.hook, r.ran - 1);
    } else if HandlerPassed(m, e, o) && !AllPass(m.post, e, o.hook) {
      var r := RunHooks(m.post, e, o.hook);
      assert FailsFirstAt(m.post, e, o.hook, r.ran - 1);
    }
  }

  lemma ExecutePreservesWellFormed(m: Machine, e: Event, o: Oracles, live: State)
    requires WellFormed(m)
    ensures WellFormed(Execute(m, e, o, live).machine)
  {
  }

  /**
   * For a rule that is the only one of its kind from the current state, and
   * a pipeline that otherwise passes, the dispatch lands on the rule's target
   * exactly when the guard is absent or accepts; otherwise it fails with "no
   * valid transition" and the state stays.
   */
  lemma SoleRuleFiresIffGuardAccepts(m: Machine, e: Event, o: Oracles, k: nat)
    requires m.state in m.transitions && k < |m.transitions[m.state]|
    requires m.transitions[m.state][k].kind == e.ty.kind
    requires forall j :: 0 <= j < |m.transitions[m.state]| && j != k ==> m.transitions[m.state][j].kind != e.ty.kind
    requires LookupHandler(m, e).Ok?
    requires AllPass(m.pre, e, o.hook) && AllPass(m.post, e, o.hook) && o.run(m.handlers[e.ty.kind], e).Pass?
    ensures var rule := m.transitions[m.state][k];
      var d := Execute(m, e, o, m.state);
      && (d.err.None? <==> rule.guard.None? || o.guard(rule.guard.value, e))
      && (d.err.None? ==> d.machine.state == rule.to)
      && (d.err.Some? ==> d.err == Some(NoValidTransition(e.ty.kind, m.state)) && d.machine == m)
  {
    var rules := m.transitions[m.state];
    if Matches(rules[k], e, o.guard) {
      assert IsFirstMatch(rules, e, o.guard, k);
      var i :| IsFirstMatch(rules, e, o.guard, i) && FindValidTransition(m, e, o.guard).value == rules[i];
    }
  }

  /**
   * After two registrations for the dispatched event's type, only the later
   * handler can run. Re-registration leads to "invalid handler type" only
   * when the later handler is nil, and then whenever validation passes.
   */
  lemma DispatchUsesLatestRegistration(m: Machine, t: EventType, h1: HandlerId, h2: HandlerId, e: Event, o: Oracles, live: State)
    requires e.ty == t
    ensures var m2 := RegisterHandler(RegisterHandler(m, t, h1), t, h2);
      var d := Execute(m2, e, o, live);
      && (d.ran.handler.Some? ==> d.ran.handler == Some(HandlerTag(t.typeId, h2)))
      && (d.err == Some(InvalidHandlerType(t.kind)) <==> h2 == NilHandler && FindValidTransition(m2, e, o.guard).Ok?)
      && d.err != Some(NoHandlerRegistered(t.kind))
  {
    var m2 := RegisterHandler(RegisterHandler(m, t, h1), t, h2);
    var d := Execute(m2, e, o, live);
    if FindValidTransition(m2, e, o.guard).Ok? && !AllPass(m2.pre, e, o.hook) {
      var r := RunHooks(m2.pre, e, o.hook);
      assert FailsFirstAt(m2.pre, e, o.hook, r.ran - 1);
    } else if HandlerPassed(m2, e, o) && !AllPass(m2.post, e, o.hook) {
      var r := RunHooks(m2.post, e, o.hook);
      assert FailsFirstAt(m2.post, e, o.hook, r.ran - 1);
    }
  }
}

=== FILE: gofmt.dfy ===
/**
 * Go's `fmt.Errorf(text)` with no operands: `text` is read as a format
 * string. Literal text is copied; every `%` starts a directive (flags,
 * an optional `[n]` argument index, width, precision, verb) and, as there
 * is no operand to print, the directive is rendered as one of fmt's error
 * notes: `%!v(MISSING)`, `%!v(BADINDEX)`, `%!(BADWIDTH)`, `%!(BADPREC)`,
 * `%!(NOVERB)`, or `%` for the escape `%%`. Characters stand for runes.
 */
module GoFmt {

  const BadWidth: string := "%!(BADWIDTH)"
  const BadPrec: string := "%!(BADPREC)"
  const NoVerb: string := "%!(NOVERB)"

  /** fmt refuses numbers past a million while reading them. */
  predicate TooLarge(x: int) {
    x > 1000000 || x < -1000000
  }

  predicate IsDigit(c: char) {
    '0' <= c <= '9'
  }

  /** A decimal number read from the format: its value, whether any digit was read, where reading stopped. */
  datatype Num = Num(value: int, present: bool, next: nat)

  /**
   * fmt's `parsenum` on s[i..end], continuing from a partial value `num`.
   * On overflow it gives up and reports the end of the range as the stop.
   */
  function ParseNum(s: string, i: nat, end: nat, num: int, isnum: bool): (r: Num)
    requires i <= end <= |s|
    ensures i <= r.next <= end
    ensures r.present ==> isnum || (i < end && IsDigit(s[i]))
    ensures forall j :: i <= j < r.next && r.next < end ==> IsDigit(s[j])
    decreases end - i
  {
    if i < end && IsDigit(s[i]) then
      if TooLarge(num) then Num(0, false, end)
      else ParseNum(s, i + 1, end, num * 10 + (s[i] as int - '0' as int), true)
    else Num(num, isnum, i)
  }

  /** The position of the first `c` in s at or after `i`, or |s|. */
  function IndexOf(s: string, c: char, i: nat): (k: nat)
    requires i <= |s|
    ensures i <= k <= |s|
    ensures k < |s| ==> s[k] == c
    ensures forall j :: i <= j < k ==> s[j] != c
    decreases |s| - i
  {
    if i == |s| || s[i] == c then i else IndexOf(s, c, i + 1)
  }

  /** An explicit argument index `[n]`: its value, how many characters it takes, whether it was well formed. */
  datatype ArgIndex = ArgIndex(index: int, width: nat, ok: bool)

  /** fmt's `parseArgNumber` on the text that starts with `[`. */
  function ParseArgNumber(s: string): (r: ArgIndex)
    requires |s| > 0
    ensures 1 <= r.width <= |s|
  {
    if |s| < 3 then ArgIndex(0, 1, false)
    else
      var j := IndexOf(s, ']', 1);
      if j == |s| then ArgIndex(0, 1, false)
      else
        var n := ParseNum(s, 1, j, 0, false);
        if !n.present || n.next != j then ArgIndex(0, j + 1, false)
        else ArgIndex(n.value - 1, j + 1, true)
  }

  /** Where the reading of one directive stands, and what it has written so far. */
  datatype Cursor = Cursor(pos: nat, afterIndex: bool, good: bool, out: string)

  /** The flags `#0+- `, which change nothing once there is no operand. */
  function SkipFlags(s: string, i: nat): (k: nat)
    requires i <= |s|
    ensures i <= k <= |s|
    ensures k < |s| ==> s[k] !in "#0+- "
    decreases |s| - i
  {
    if i < |s| && s[i] in "#0+- " then SkipFlags(s, i + 1) else i
  }

  /**
   * fmt's `argNumber` with no operands: a `[n]` is read but can never name
   * an operand, so the directive is marked as having a bad index.
   */
  function Index(s: string, c: Cursor): (r: Cursor)
    requires c.pos <= |s|
    ensures c.pos <= r.pos <= |s| && r.out == c.out
    ensures r.pos == c.pos <==> c.pos == |s| || s[c.pos] != '['
    ensures r.good ==> c.good
  {
    if c.pos == |s| || s[c.pos] != '[' then c.(afterIndex := false)
    else
      var a := ParseArgNumber(s[c.pos..]);
      c.(pos := c.pos + a.width, afterIndex := a.ok, good := false)
  }

  /** A width: `*` asks for an operand that is not there; digits right after `[n]` spoil the index. */
  function Width(s: string, c: Cursor): (r: Cursor)
    requires c.pos <= |s|
    ensures c.pos <= r.pos <= |s|
    ensures r.good ==> c.good
    ensures r.out == c.out || r.out == c.out + BadWidth
  {
    if c.pos < |s| && s[c.pos] == '*' then
      c.(pos := c.pos + 1, afterIndex := false, out := c.out + BadWidth)
    else
      var n := ParseNum(s, c.pos, |s|, 0, false);
      c.(pos := n.next, good := c.good && !(c.afterIndex && n.present))
  }

  /** A precision `.` followed by an optional `[n]` and then `*` or digits; read only when more text follows the dot. */
  function Precision(s: string, c: Cursor): (r: Cursor)
    requires c.pos <= |s|
    ensures c.pos <= r.pos <= |s|
    ensures r.good ==> c.good
    ensures r.pos == c.pos <==> !(c.pos + 1 < |s| && s[c.pos] == '.')
    ensures r.out == c.out || r.out == c.out + BadPrec
  {
    if c.pos + 1 < |s| && s[c.pos] == '.' then
      var c1 := Index(s, c.(pos := c.pos + 1, good := c.good && !c.afterIndex));
      if c1.pos < |s| && s[c1.pos] == '*' then
        c1.(pos := c1.pos + 1, afterIndex := false, out := c1.out + BadPrec)
      else
        c1.(pos := ParseNum(s, c1.pos, |s|, 0, false).next)
    else c
  }

  /** What one directive writes and how many characters of the text after `%` it takes; `stop` ends the format. */
  datatype Piece = Piece(out: string, next: nat, stop: bool)

  /** The verb's note when there is no operand for it. */
  function VerbNote(v: char, good: bool): (r: string)
    ensures v == '%' ==> r == "%"
    ensures v != '%' ==> |r| > 3 && r[..2] == "%!" && r[2] == v
  {
    if v == '%' then "%"
    else if !good then "%!" + [v] + "(BADINDEX)"
    else "%!" + [v] + "(MISSING)"
  }

  /** One directive, read from the text `s` that follows its `%`. */
  function Directive(s: string): (d: Piece)
    ensures d.stop ==> d.next == |s|
    ensures !d.stop ==> 1 <= d.next <= |s|
    ensures d.out != [] && d.out[0] == '%'
  {
    var c := Precision(s, Width(s, Index(s, Cursor(SkipFlags(s, 0), false, true, ""))));
    var c := if c.afterIndex then c else Index(s, c);
    assert c.out == [] || c.out[0] == '%';
    if c.pos >= |s| then Piece(c.out + NoVerb, |s|, true)
    else Piece(c.out + VerbNote(s[c.pos], c.good), c.pos + 1, false)
  }

  /** `s` holds no `%`, so fmt copies it as it is. */
  predicate Plain(s: string) {
    forall i :: 0 <= i < |s| ==> s[i] != '%'
  }

  /**
   * The text of `fmt.Errorf(f)`, that is `fmt.Sprintf(f)` with no operands.
   * Output is empty only for an empty format; text without `%` is printed
   * as it is; every prefix free of `%` is copied to the front of the output;
   * a leading `%` always yields a note or an escape that starts with `%`.
   */
  function Render(f: string): (r: string)
    ensures |r| == 0 <==> |f| == 0
    ensures Plain(f) ==> r == f
    ensures forall i :: 0 <= i <= |f| && Plain(f[..i]) ==> i <= |r| && r[..i] == f[..i]
    ensures f != [] && f[0] == '%' ==> r[0] == '%'
    decreases |f|, 1
  {
    if f == [] then []
    else if f[0] != '%' then
      var t := Render(f[1..]);
      PlainCons(f);
      forall i | 0 <= i <= |f| && Plain(f[..i]) ensures i <= |[f[0]] + t| && ([f[0]] + t)[..i] == f[..i] {
        if i > 0 {
          PlainPrefixTail(f, i);
          ConsPrefix(f, t, i);
        }
      }
      [f[0]] + t
    else
      forall i | 1 <= i <= |f| ensures !Plain(f[..i]) {
        assert f[..i][0] == '%';
      }
      RenderDirective(f[1..])
  }

  /** A format that starts with a character other than `%`: it is plain exactly when its tail is. */
  lemma PlainCons(f: string)
    requires f != [] && f[0] != '%'
    ensures Plain(f) <==> Plain(f[1..])
    ensures f == [f[0]] + f[1..]
  {
    if Plain(f[1..]) {
      forall i | 0 <= i < |f| ensures f[i] != '%' {
        if i > 0 { assert f[i] == f[1..][i - 1]; }
      }
    }
  }

  /** A plain prefix of length i has a plain prefix of length i - 1 in the tail. */
  lemma PlainPrefixTail(f: string, i: nat)
    requires 1 <= i <= |f| && Plain(f[..i])
    ensures Plain(f[1..][..i - 1])
  {
    var g := f[1..][..i - 1];
    forall j | 0 <= j < |g| ensures g[j] != '%' {
      assert g[j] == f[..i][j + 1];
    }
  }

  /** Putting f's first character in front of a text that starts like f's tail gives a text that starts like f. */
  lemma ConsPrefix(f: string, t: string, i: nat)
    requires 1 <= i <= |f|
    requires i - 1 <= |t| && t[..i - 1] == f[1..][..i - 1]
    ensures i <= |[f[0]] + t| && ([f[0]] + t)[..i] == f[..i]
  {
    assert ([f[0]] + t)[..i] == [f[0]] + t[..i - 1];
    assert f[..i] == [f[0]] + f[1..][..i - 1];
  }

  /** The rendering of a directive read from `s`, the text after its `%`, and of everything after it. */
  function RenderDirective(s: string): (r: string)
    ensures r != [] && r[0] == '%'
    decreases |s|, 0
  {
    var d := Directive(s);
    if d.stop then d.out else d.out + Render(s[d.next..])
  }

  lemma PlainAppend(a: string, b: string)
    requires Plain(a) && Plain(b)
    ensures Plain(a + b)
  {
    forall i | 0 <= i < |a + b| ensures (a + b)[i] != '%' {
      if i < |a| { assert (a + b)[i] == a[i]; } else { assert (a + b)[i] == b[i - |a|]; }
    }
  }

  /** A character other than `%` is copied. */
  lemma RenderCons(c: char, t: string)
    requires c != '%'
    ensures Render([c] + t) == [c] + Render(t)
  {
    assert ([c] + t)[1..] == t;
  }

  /** Text without `%` comes out unchanged; a consequence of `Render`'s contract, kept as a named fact. */
  lemma RenderPlain(f: string)
    requires Plain(f)
    ensures Render(f) == f
  {
  }

  /** Sequence facts kept out of the proofs about `Render`, where they are costly. */
  lemma SplitHead(a: string, b: string)
    requires a != []
    ensures a + b == [a[0]] + (a[1..] + b)
    ensures a + Render(b) == [a[0]] + (a[1..] + Render(b))
  {
  }

  /** Text before the first `%` is copied as it is; the rest is read on its own. */
  lemma {:induction false} RenderAfterPlainText(a: string, b: string)
    requires Plain(a)
    ensures Render(a + b) == a + Render(b)
    decreases |a|
  {
    if a == [] {
      assert a + b == b;
    } else {
      assert Plain(a[1..]) by {
        forall i | 0 <= i < |a[1..]| ensures a[1..][i] != '%' {
          assert a[1..][i] == a[i + 1];
        }
      }
      RenderAfterPlainText(a[1..], b);
      SplitHead(a, b);
      RenderCons(a[0], a[1..] + b);
    }
  }

  /** A `%` starts a directive, read from the text after it. */
  lemma RenderPercent(s: string)
    ensures Render(['%'] + s) == RenderDirective(s)
  {
    assert (['%'] + s)[1..] == s;
  }

  /** The sequence facts of `MissingOperand`, over abstract strings. */
  lemma Shape(p: string, v: char, t: string, r: string)
    ensures p + ['%', ' ', v] + t == p + (['%'] + ([' ', v] + t))
    ensures ([' ', v] + t)[2..] == t
    ensures p + ("%!" + [v] + "(MISSING)" + r) == p + "%!" + [v] + "(MISSING)" + r
  {
  }

  /** `%` right after `%` is the verb `%`, which needs no operand. */
  lemma PercentVerb(t: string)
    ensures Directive(['%'] + t) == Piece("%", 1, false)
  {
    var s := ['%'] + t;
    assert s[0] == '%';
    assert SkipFlags(s, 0) == 0;
    var c := Cursor(0, false, true, "");
    assert Index(s, c) == c;
    assert ParseNum(s, 0, |s|, 0, false) == Num(0, false, 0);
    assert Width(s, c) == c;
    assert Precision(s, c) == c;
  }

  /** `%%` is the escape for one `%`. */
  lemma EscapedPercent(t: string)
    ensures Render(['%', '%'] + t) == "%" + Render(t)
  {
    var s := ['%'] + t;
    assert ['%', '%'] + t == ['%'] + s;
    assert s[1..] == t;
    RenderPercent(s);
    PercentVerb(t);
  }

  /** A space is read as a flag and a lower-case letter as the verb, which has no operand. */
  lemma SpaceFlagThenVerb(v: char, t: string)
    requires 'a' <= v <= 'z'
    ensures Directive([' ', v] + t) == Piece("%!" + [v] + "(MISSING)", 2, false)
  {
    var s := [' ', v] + t;
    assert s[0] == ' ' && s[1] == v;
    assert SkipFlags(s, 1) == 1;
    assert SkipFlags(s, 0) == 1;
    var c := Cursor(1, false, true, "");
    assert Index(s, c) == c;
    assert ParseNum(s, 1, |s|, 0, false) == Num(0, false, 1);
    assert Width(s, c) == c;
    assert Precision(s, c) == c;
  }

  /**
   * A `%` followed by a space and a lower-case letter, with no operand to
   * print, becomes `%!` the letter `(MISSING)`.
   */
  lemma MissingOperand(p: string, v: char, t: string)
    requires Plain(p)
    requires 'a' <= v <= 'z'
    ensures Render(p + ['%', ' ', v] + t) == p + "%!" + [v] + "(MISSING)" + Render(t)
  {
    var s := [' ', v] + t;
    Shape(p, v, t, Render(t));
    RenderAfterPlainText(p, ['%'] + s);
    RenderPercent(s);
    SpaceFlagThenVerb(v, t);
  }
}

=== FILE: options.dfy ===
/**
 * Construction options (options.go): an option is a function that adjusts a
 * machine; the two provided ones set the pre- or the post-transition
 * middleware list.
 */
module Options {
  import opened Common
  import opened Fsm
  import opened Compose

  /** Everything but the middleware lists agrees. */
  predicate SameCore(a: Machine, b: Machine) {
    a.state == b.state && a.transitions == b.transitions && a.handlers == b.handlers
  }

  /** Applies the options in list order: each sees the machine the previous one left. */
  function ApplyOptions(m: Machine, options: seq<Machine -> Machine>): (r: Machine)
    ensures |options| == 0 ==> r == m
    ensures |options| > 0 ==> r == options[|options| - 1](ApplyOptions(m, options[..|options| - 1]))
  {
    Pipe(m, options)
  }

  function WithPreTransitionMiddlewares(hooks: seq<HookId>): (opt: Machine -> Machine)
    ensures forall m :: opt(m).pre == hooks && opt(m).post == m.post && SameCore(opt(m), m)
  {
    (m: Machine) => m.(pre := hooks)
  }

  function WithPostTransitionMiddlewares(hooks: seq<HookId>): (opt: Machine -> Machine)
    ensures forall m :: opt(m).post == hooks && opt(m).pre == m.pre && SameCore(opt(m), m)
  {
    (m: Machine) => m.(post := hooks)
  }

  /** Applying more options continues from where the earlier ones left off. */
  lemma ApplyOptionsAppend(m: Machine, a: seq<Machine -> Machine>, b: seq<Machine -> Machine>)
    ensures ApplyOptions(m, a + b) == ApplyOptions(ApplyOptions(m, a), b)
  {
    PipeAppend(m, a, b);
  }

  /** Of two options setting the pre list, the later one wins. */
  lemma LaterPreOptionWins(m: Machine, options: seq<Machine -> Machine>, h1: seq<HookId>, h2: seq<HookId>)
    ensures ApplyOptions(m, options + [WithPreTransitionMiddlewares(h1), WithPreTransitionMiddlewares(h2)])
         == ApplyOptions(m, options + [WithPreTransitionMiddlewares(h2)])
  {
    var p1, p2 := WithPreTransitionMiddlewares(h1), WithPreTransitionMiddlewares(h2);
    ApplyOptionsAppend(m, options, [p1, p2]);
    ApplyOptionsAppend(m, options, [p2]);
    PipeTwo(ApplyOptions(m, options), p1, p2);
    PipeSingle(ApplyOptions(m, options), p2);
  }

  /** Of two options setting the post list, the later one wins. */
  lemma LaterPostOptionWins(m: Machine, options: seq<Machine -> Machine>, h1: seq<HookId>, h2: seq<HookId>)
    ensures ApplyOptions(m, options + [WithPostTransitionMiddlewares(h1), WithPostTransitionMiddlewares(h2)])
         == ApplyOptions(m, options + [WithPostTransitionMiddlewares(h2)])
  {
    var p1, p2 := WithPostTransitionMiddlewares(h1), WithPostTransitionMiddlewares(h2);
    ApplyOptionsAppend(m, options, [p1, p2]);
    ApplyOptionsAppend(m, options, [p2]);
    PipeTwo(ApplyOptions(m, options), p1, p2);
    PipeSingle(ApplyOptions(m, options), p2);
  }

  /** Setting the pre list and setting the post list do not interfere, in either order. */
  lemma PreAndPostOptionsCommute(m: Machine, pre: seq<HookId>, post: seq<HookId>)
    ensures ApplyOptions(m, [WithPreTransitionMiddlewares(pre), WithPostTransitionMiddlewares(post)])
         == ApplyOptions(m, [WithPostTransitionMiddlewares(post), WithPreTransitionMiddlewares(pre)])
    ensures ApplyOptions(m, [WithPreTransitionMiddlewares(pre), WithPostTransitionMiddlewares(post)])
         == m.(pre := pre, post := post)
  {
    PipeTwo(m, WithPreTransitionMiddlewares(pre), WithPostTransitionMiddlewares(post));
    PipeTwo(m, WithPostTransitionMiddlewares(post), WithPreTransitionMiddlewares(pre));
  }

  lemma OptionsPreserveWellFormed(m: Machine, hooks: seq<HookId>)
    requires WellFormed(m)
    ensures WellFormed(WithPreTransitionMiddlewares(hooks)(m))
    ensures WellFormed(WithPostTransitionMiddlewares(hooks)(m))
  {
  }
}

=== FILE: orphan_scan.dfy ===
/**
 * The machine's own orphan scan (state.go, FindOrphanTransitions method):
 * every declared rule whose kind has no registry entry, copied with `From`
 * set to the state it is filed under. Go visits the transition map in an
 * unspecified order, given here as `order`.
 */
module OrphanScan {
  import opened Common
  import opened Fsm

  /** The orphans of one state's list, in declaration order. */
  function OrphansIn(from: State, rules: seq<TransitionRule>, handlers: map<Kind, HandlerTag>): (r: seq<TransitionRule>)
    ensures |r| <= |rules|
    ensures forall x :: x in r ==> x.from == from && x.kind !in handlers
    ensures forall i :: 0 <= i < |rules| && rules[i].kind !in handlers ==> rules[i].(from := from) in r
    ensures forall x :: x in r ==>
      exists i :: 0 <= i < |rules| && rules[i].kind !in handlers && x == rules[i].(from := from)
  {
    if |rules| == 0 then []
    else
      var rest := OrphansIn(from, rules[1..], handlers);
      assert forall i :: 1 <= i < |rules| ==> rules[i] == rules[1..][i - 1];
      if rules[0].kind in handlers then rest else [rules[0].(from := from)] + rest
  }

  /** Filtering one list distributes over concatenation, so declaration order is kept. */
  lemma {:induction false} OrphansInAppend(from: State, a: seq<TransitionRule>, b: seq<TransitionRule>, handlers: map<Kind, HandlerTag>)
    ensures OrphansIn(from, a + b, handlers) == OrphansIn(from, a, handlers) + OrphansIn(from, b, handlers)
    decreases |a|
  {
    if |a| == 0 {
      assert a + b == b;
    } else {
      assert (a + b)[1..] == a[1..] + b;
      OrphansInAppend(from, a[1..], b, handlers);
    }
  }

  /** The scan's loop over the visited keys. */
  function CollectOrphans(m: Machine, order: seq<State>): (r: seq<TransitionRule>)
    requires forall i :: 0 <= i < |order| ==> order[i] in m.transitions
    ensures forall x :: x in r ==>
      exists k :: 0 <= k < |order| && x in OrphansIn(order[k], m.transitions[order[k]], m.handlers)
    ensures forall k, x :: 0 <= k < |order| && x in OrphansIn(order[k], m.transitions[order[k]], m.handlers) ==> x in r
  {
    if |order| == 0 then []
    else
      var head := OrphansIn(order[0], m.transitions[order[0]], m.handlers);
      var rest := CollectOrphans(m, order[1..]);
      assert forall k :: 1 <= k < |order| ==> order[k] == order[1..][k - 1];
      head + rest
  }

  lemma {:induction false} CollectOrphansAppend(m: Machine, a: seq<State>, b: seq<State>)
    requires forall i :: 0 <= i < |a| ==> a[i] in m.transitions
    requires forall i :: 0 <= i < |b| ==> b[i] in m.transitions
    ensures CollectOrphans(m, a + b) == CollectOrphans(m, a) + CollectOrphans(m, b)
    decreases |a|
  {
    if |a| == 0 {
      assert a + b == b;
    } else {
      assert (a + b)[1..] == a[1..] + b;
      CollectOrphansAppend(m, a[1..], b);
    }
  }

  /** `x` is the copy of a declared rule whose kind has no handler. */
  ghost predicate IsOrphan(m: Machine, x: TransitionRule) {
    exists s, i :: s in m.transitions && 0 <= i < |m.transitions[s]|
      && m.transitions[s][i].kind !in m.handlers && x == m.transitions[s][i].(from := s)
  }

  /** Every declared rule has a registry entry for its kind. */
  predicate AllHandled(m: Machine) {
    forall s, i :: s in m.transitions && 0 <= i < |m.transitions[s]| ==> m.transitions[s][i].kind in m.handlers
  }

  function FindOrphanTransitions(m: Machine, order: seq<State>): (r: seq<TransitionRule>)
    requires EnumeratesKeys(order, m.transitions)
    ensures forall x :: x in r <==> IsOrphan(m, x)
    ensures |r| == 0 <==> AllHandled(m)
  {
    var r := CollectOrphans(m, order);
    assert forall x :: x in r ==> IsOrphan(m, x) by {
      forall x | x in r ensures IsOrphan(m, x) {
        var k :| 0 <= k < |order| && x in OrphansIn(order[k], m.transitions[order[k]], m.handlers);
        var i :| 0 <= i < |m.transitions[order[k]]| && m.transitions[order[k]][i].kind !in m.handlers
          && x == m.transitions[order[k]][i].(from := order[k]);
      }
    }
    assert forall x :: IsOrphan(m, x) ==> x in r by {
      forall x | IsOrphan(m, x) ensures x in r {
        var s, i :| s in m.transitions && 0 <= i < |m.transitions[s]|
          && m.transitions[s][i].kind !in m.handlers && x == m.transitions[s][i].(from := s);
        var k :| 0 <= k < |order| && order[k] == s;
        assert x in OrphansIn(order[k], m.transitions[order[k]], m.handlers);
      }
    }
    assert |r| == 0 <==> AllHandled(m) by {
      if !AllHandled(m) {
        var s, i :| s in m.transitions && 0 <= i < |m.transitions[s]| && m.transitions[s][i].kind !in m.handlers;
        assert IsOrphan(m, m.transitions[s][i].(from := s));
      }
      if |r| > 0 {
        assert IsOrphan(m, r[0]);
      }
    }
    r
  }

  /** The rules of `xs` filed under source state `s`, in their order. */
  function FromState(xs: seq<TransitionRule>, s: State): seq<TransitionRule> {
    if |xs| == 0 then [] else (if xs[0].from == s then [xs[0]] else []) + FromState(xs[1..], s)
  }

  lemma {:induction false} FromStateAppend(a: seq<TransitionRule>, b: seq<TransitionRule>, s: State)
    ensures FromState(a + b, s) == FromState(a, s) + FromState(b, s)
    decreases |a|
  {
    if |a| == 0 {
      assert a + b == b;
    } else {
      var head := if a[0].from == s then [a[0]] else [];
      assert (a + b)[0] == a[0];
      assert (a + b)[1..] == a[1..] + b;
      calc {
        FromState(a + b, s);
        head + FromState(a[1..] + b, s);
        { FromStateAppend(a[1..], b, s); }
        head + (FromState(a[1..], s) + FromState(b, s));
        (head + FromState(a[1..], s)) + FromState(b, s);
      }
    }
  }

  lemma {:induction false} FromStateAll(xs: seq<TransitionRule>, s: State)
    requires forall x :: x in xs ==> x.from == s
    ensures FromState(xs, s) == xs
    decreases |xs|
  {
    if |xs| > 0 {
      FromStateAll(xs[1..], s);
    }
  }

  lemma {:induction false} FromStateNone(xs: seq<TransitionRule>, s: State)
    requires forall x :: x in xs ==> x.from != s
    ensures FromState(xs, s) == []
    decreases |xs|
  {
    if |xs| > 0 {
      FromStateNone(xs[1..], s);
    }
  }

  /** The tail of a duplicate-free sequence is duplicate-free and misses the head. */
  lemma DistinctTail(order: seq<State>)
    requires |order| > 0 && Distinct(order)
    ensures Distinct(order[1..]) && order[0] !in order[1..]
  {
    forall k | 0 <= k < |order[1..]| ensures order[1..][k] != order[0] {
      assert order[1..][k] == order[k + 1];
    }
  }

  lemma {:induction false} CollectFromState(m: Machine, order: seq<State>, s: State)
    requires forall i :: 0 <= i < |order| ==> order[i] in m.transitions
    requires Distinct(order)
    ensures s in order ==> FromState(CollectOrphans(m, order), s) == OrphansIn(s, m.transitions[s], m.handlers)
    ensures s !in order ==> FromState(CollectOrphans(m, order), s) == []
    decreases |order|
  {
    if |order| > 0 {
      var head := OrphansIn(order[0], m.transitions[order[0]], m.handlers);
      DistinctTail(order);
      FromStateAppend(head, CollectOrphans(m, order[1..]), s);
      CollectFromState(m, order[1..], s);
      if order[0] == s {
        FromStateAll(head, s);
      } else {
        FromStateNone(head, s);
        assert s in order ==> s in order[1..];
      }
    }
  }

  /**
   * Within one source state the orphans come out in declaration order,
   * whatever order the map is visited in.
   */
  lemma OrphansKeepDeclarationOrder(m: Machine, order: seq<State>, s: State)
    requires EnumeratesKeys(order, m.transitions)
    requires s in m.transitions
    ensures FromState(FindOrphanTransitions(m, order), s) == OrphansIn(s, m.transitions[s], m.handlers)
  {
    CollectFromState(m, order, s);
  }

  /** Visiting `s` between `pre` and `post` puts its orphans between theirs. */
  lemma CollectAround(m: Machine, pre: seq<State>, s: State, post: seq<State>)
    requires forall i :: 0 <= i < |pre| ==> pre[i] in m.transitions
    requires forall i :: 0 <= i < |post| ==> post[i] in m.transitions
    requires s in m.transitions
    ensures forall i :: 0 <= i < |pre + [s] + post| ==> (pre + [s] + post)[i] in m.transitions
    ensures CollectOrphans(m, pre + [s] + post)
         == CollectOrphans(m, pre) + OrphansIn(s, m.transitions[s], m.handlers) + CollectOrphans(m, post)
  {
    var tail := [s] + post;
    assert pre + [s] + post == pre + tail;
    assert tail[1..] == post;
    CollectOrphansAppend(m, pre, tail);
  }

  /**
   * The orphans of the k-th visited state form one block of the result,
   * after those of the states visited before it and before those visited after.
   */
  lemma OrphansOfOneStateAreContiguous(m: Machine, order: seq<State>, k: nat)
    requires EnumeratesKeys(order, m.transitions)
    requires k < |order|
    ensures FindOrphanTransitions(m, order)
         == CollectOrphans(m, order[..k])
            + OrphansIn(order[k], m.transitions[order[k]], m.handlers)
            + CollectOrphans(m, order[k + 1..])
  {
    assert order == order[..k] + [order[k]] + order[k + 1..];
    CollectAround(m, order[..k], order[k], order[k + 1..]);
  }

  /** `o` without its element at position `j`. */
  function Without(o: seq<State>, j: nat): (r: seq<State>)
    requires j < |o|
    ensures |r| == |o| - 1
  {
    o[..j] + o[j + 1..]
  }

  lemma WithoutKeepsOthers(o: seq<State>, j: nat)
    requires j < |o| && Distinct(o)
    ensures Distinct(Without(o, j))
    ensures forall s :: s in Without(o, j) <==> s in o && s != o[j]
  {
    var r := Without(o, j);
    forall a, b | 0 <= a < b < |r| ensures r[a] != r[b] {
      var a' := if a < j then a else a + 1;
      var b' := if b < j then b else b + 1;
      assert r[a] == o[a'] && r[b] == o[b'];
    }
    forall s ensures s in r <==> s in o && s != o[j] {
      if s in r {
        var b :| 0 <= b < |r| && r[b] == s;
        var b' := if b < j then b else b + 1;
        assert o[b'] == s && b' != j;
      }
      if s in o && s != o[j] {
        var b :| 0 <= b < |o| && o[b] == s;
        if b < j { assert r[b] == s; } else { assert r[b - 1] == s; }
      }
    }
  }

  /** Taking one state's block out of the middle of the visit order. */
  lemma CollectSplit(m: Machine, o: seq<State>, j: nat)
    requires j < |o|
    requires forall i :: 0 <= i < |o| ==> o[i] in m.transitions
    ensures forall i :: 0 <= i < |Without(o, j)| ==> Without(o, j)[i] in m.transitions
    ensures multiset(CollectOrphans(m, o))
         == multiset(OrphansIn(o[j], m.transitions[o[j]], m.handlers)) + multiset(CollectOrphans(m, Without(o, j)))
  {
    var tail := [o[j]] + o[j + 1..];
    assert o == o[..j] + tail;
    assert tail[1..] == o[j + 1..];
    assert forall i :: 0 <= i < |Without(o, j)| ==> Without(o, j)[i] in o;
    CollectOrphansAppend(m, o[..j], tail);
    CollectOrphansAppend(m, o[..j], o[j + 1..]);
  }

  /**
   * Kept as a lemma: asserted inline, in the branch where `o1` is empty and
   * `o2` is not, the verifier reports it as following from contradictory facts.
   */
  lemma HeadIsMember(o: seq<State>)
    requires |o| > 0
    ensures o[0] in o
  {
  }

  /** Two duplicate-free visit orders of the same keys yield the same orphans, as a multiset. */
  lemma {:induction false} CollectPermutation(m: Machine, o1: seq<State>, o2: seq<State>)
    requires forall i :: 0 <= i < |o1| ==> o1[i] in m.transitions
    requires forall i :: 0 <= i < |o2| ==> o2[i] in m.transitions
    requires Distinct(o1) && Distinct(o2)
    requires forall s :: s in o1 <==> s in o2
    ensures multiset(CollectOrphans(m, o1)) == multiset(CollectOrphans(m, o2))
    decreases |o1|
  {
    if |o1| == 0 {
      if |o2| > 0 {
        HeadIsMember(o2);
        assert false;
      }
    } else {
      var k := o1[0];
      assert k in o2;
      var j :| 0 <= j < |o2| && o2[j] == k;
      CollectSplit(m, o2, j);
      WithoutKeepsOthers(o2, j);
      WithoutKeepsOthers(o1, 0);
      assert Without(o1, 0) == o1[1..];
      CollectPermutation(m, o1[1..], Without(o2, j));
    }
  }

  /**
   * The orphan list does not depend on the order Go visits the map in, up
   * to the order of its elements: duplicates included, the same rules come out.
   */
  lemma OrphansIndependentOfOrder(m: Machine, o1: seq<State>, o2: seq<State>)
    requires EnumeratesKeys(o1, m.transitions) && EnumeratesKeys(o2, m.transitions)
    ensures multiset(FindOrphanTransitions(m, o1)) == multiset(FindOrphanTransitions(m, o2))
  {
    CollectPermutation(m, o1, o2);
  }
}

=== FILE: orphans.dfy ===
/**
 * Orphan reports (oprhans.go): the text error for one named machine, and the
 * batch check over a map of named machines. The machines are only read.
 * Go visits maps in an unspecified order; the visit orders are inputs.
 */
module Orphans {
  import opened Common
  import opened Fsm
  import Scan = OrphanScan
  import GoFmt

  /** What follows the machine's name on the report's first line. */
  const Header: string := " has orphan transitions:\n"

  /**
   * One line per orphan, holding its kind, in orphan order: read back as
   * lines, the text gives the orphans' kinds, duplicates kept.
   */
  function KindLines(orphans: seq<TransitionRule>): (r: string)
    ensures |r| == 0 <==> |orphans| == 0
    ensures NoNewlineIn(orphans) ==> SplitLines(r) == Kinds(orphans)
    ensures PlainKinds(orphans) ==> GoFmt.Plain(r)
    decreases |orphans|
  {
    if |orphans| == 0 then ""
    else
      var line, rest := orphans[0].kind, KindLines(orphans[1..]);
      assert NoNewlineIn(orphans) ==> SplitLines(line + "\n" + rest) == Kinds(orphans) by {
        if NoNewlineIn(orphans) {
          assert NoNewlineIn(orphans[1..]) by {
            forall i | 0 <= i < |orphans[1..]| ensures '\n' !in orphans[1..][i].kind {
              assert orphans[1..][i] == orphans[i + 1];
            }
          }
          SplitFirstLine(line, rest);
          assert Kinds(orphans) == [line] + Kinds(orphans[1..]);
        }
      }
      assert PlainKinds(orphans) ==> GoFmt.Plain(line + "\n" + rest) by {
        if PlainKinds(orphans) {
          assert PlainKinds(orphans[1..]) by {
            forall i | 0 <= i < |orphans[1..]| ensures GoFmt.Plain(orphans[1..][i].kind) {
              assert orphans[1..][i] == orphans[i + 1];
            }
          }
          GoFmt.PlainAppend(line, "\n");
          GoFmt.PlainAppend(line + "\n", rest);
        }
      }
      line + "\n" + rest
  }

  /** No orphan's kind holds a `%`. */
  predicate PlainKinds(rules: seq<TransitionRule>) {
    forall i :: 0 <= i < |rules| ==> GoFmt.Plain(rules[i].kind)
  }

  /** The kinds of `rules`, in order. */
  function Kinds(rules: seq<TransitionRule>): (r: seq<Kind>)
    ensures |r| == |rules|
    ensures forall i :: 0 <= i < |rules| ==> r[i] == rules[i].kind
  {
    if |rules| == 0 then [] else [rules[0].kind] + Kinds(rules[1..])
  }

  /** The report for one machine: nil when it has no orphans. */
  function FindOrphanTransitions(name: string, m: Machine, order: seq<State>): (r: Option<string>)
    requires EnumeratesKeys(order, m.transitions)
    ensures r.None? <==> Scan.AllHandled(m)
    ensures r.Some? ==> r.value == name + Header + KindLines(Scan.FindOrphanTransitions(m, order))
  {
    var orphans := Scan.FindOrphanTransitions(m, order);
    if |orphans| == 0 then None
    else Some(name + Header + KindLines(orphans))
  }

  /**
   * The report as Go returns it: the built text is handed to `fmt.Errorf`
   * as its format string, with no operands. It is the plain report whenever
   * neither the name nor any orphan's kind holds a `%`.
   */
  function FormattedOrphanError(name: string, m: Machine, order: seq<State>): (r: Option<string>)
    requires EnumeratesKeys(order, m.transitions)
    ensures r.None? <==> Scan.AllHandled(m)
    ensures GoFmt.Plain(name) && PlainKinds(Scan.FindOrphanTransitions(m, order)) ==>
      r == FindOrphanTransitions(name, m, order)
  {
    var report := FindOrphanTransitions(name, m, order);
    if report.None? then None
    else
      assert GoFmt.Plain(name) && PlainKinds(Scan.FindOrphanTransitions(m, order)) ==>
        GoFmt.Render(report.value) == report.value by {
        if GoFmt.Plain(name) && PlainKinds(Scan.FindOrphanTransitions(m, order)) {
          HeaderIsPlain();
          GoFmt.PlainAppend(name, Header);
          GoFmt.PlainAppend(name + Header, KindLines(Scan.FindOrphanTransitions(m, order)));
          GoFmt.RenderPlain(report.value);
        }
      }
      Some(GoFmt.Render(report.value))
  }

  lemma HeaderIsPlain()
    ensures GoFmt.Plain(Header)
  {
  }

  /** The header starts with the space and the `h` that fmt reads as a flag and a verb. */
  const HeaderRest: string := "as orphan transitions:\n"

  lemma HeaderSplit()
    ensures Header == [' ', 'h'] + HeaderRest
    ensures GoFmt.Plain(HeaderRest)
  {
  }

  /**
   * A name ending in `%` garbles the report: fmt reads the `%`, the space
   * after it (a flag) and the `h` of "has" as a directive with no operand.
   * For the name "100%" and one orphan of kind E the error reads
   * "100%!h(MISSING)as orphan transitions:" followed by the line E.
   */
  lemma PercentInNameGarblesReport(p: string, m: Machine, order: seq<State>)
    requires EnumeratesKeys(order, m.transitions)
    requires !Scan.AllHandled(m)
    requires GoFmt.Plain(p) && PlainKinds(Scan.FindOrphanTransitions(m, order))
    ensures FindOrphanTransitions(p + "%", m, order)
         == Some(p + "%" + Header + KindLines(Scan.FindOrphanTransitions(m, order)))
    ensures FormattedOrphanError(p + "%", m, order)
         == Some(p + "%!h(MISSING)" + HeaderRest + KindLines(Scan.FindOrphanTransitions(m, order)))
    ensures FormattedOrphanError(p + "%", m, order) != FindOrphanTransitions(p + "%", m, order)
  {
    var kinds := KindLines(Scan.FindOrphanTransitions(m, order));
    HeaderSplit();
    GoFmt.PlainAppend(HeaderRest, kinds);
    GoFmt.RenderPlain(HeaderRest + kinds);
    GarbledShape(p, Header, HeaderRest, kinds);
    GoFmt.MissingOperand(p, 'h', HeaderRest + kinds);
  }

  /** The string facts of `PercentInNameGarblesReport`, over abstract strings. */
  lemma GarbledShape(p: string, header: string, rest: string, kinds: string)
    requires header == [' ', 'h'] + rest
    ensures p + "%" + header + kinds == p + ['%', ' ', 'h'] + (rest + kinds)
    ensures p + "%!" + ['h'] + "(MISSING)" + (rest + kinds) == p + "%!h(MISSING)" + rest + kinds
    ensures |p + "%!h(MISSING)" + rest + kinds| != |p + "%" + header + kinds|
  {
    assert "%!" + ['h'] + "(MISSING)" == "%!h(MISSING)";
  }

  /** Splits text into its newline-terminated lines; an unterminated tail is a last line. */
  function SplitLines(s: string): seq<string>
    decreases |s|
  {
    if |s| == 0 then []
    else
      var i := GoFmt.IndexOf(s, '\n', 0);
      if i == |s| then [s] else [s[..i]] + SplitLines(s[i + 1..])
  }

  /** Splitting a line that has no newline of its own, followed by its newline and more text. */
  lemma SplitFirstLine(line: string, rest: string)
    requires '\n' !in line
    ensures SplitLines(line + "\n" + rest) == [line] + SplitLines(rest)
  {
    var s := line + "\n" + rest;
    var i := GoFmt.IndexOf(s, '\n', 0);
    assert s[|line|] == '\n';
    assert forall j :: 0 <= j < |line| ==> s[j] == line[j];
    assert i == |line|;
    assert s[..i] == line;
    assert s[i + 1..] == rest;
  }

  ghost predicate NoNewlineIn(rules: seq<TransitionRule>) {
    forall i :: 0 <= i < |rules| ==> '\n' !in rules[i].kind
  }

  /**
   * When names and kinds contain no newline, a report is its header line
   * followed by exactly one line per orphan, duplicates kept, in orphan order.
   */
  lemma ReportLines(name: string, m: Machine, order: seq<State>)
    requires EnumeratesKeys(order, m.transitions)
    requires '\n' !in name
    requires NoNewlineIn(Scan.FindOrphanTransitions(m, order))
    ensures var r := FindOrphanTransitions(name, m, order);
      r.Some? ==>
        && SplitLines(r.value) == [name + " has orphan transitions:"] + Kinds(Scan.FindOrphanTransitions(m, order))
        && |SplitLines(r.value)| == 1 + |Scan.FindOrphanTransitions(m, order)|
  {
    var orphans := Scan.FindOrphanTransitions(m, order);
    HeaderLine(name, KindLines(orphans));
    SplitFirstLine(name + " has orphan transitions:", KindLines(orphans));
  }

  /** The report's first line ends where the header does. */
  lemma HeaderLine(name: string, rest: string)
    requires '\n' !in name
    ensures '\n' !in name + " has orphan transitions:"
    ensures name + Header + rest == name + " has orphan transitions:" + "\n" + rest
  {
    assert Header == " has orphan transitions:" + "\n";
  }

  /** Every named machine has a visit order for its transition map. */
  predicate OrdersFit(ms: map<string, Machine>, names: seq<string>, orders: map<string, seq<State>>) {
    forall i :: 0 <= i < |names| ==>
      && names[i] in ms && names[i] in orders
      && EnumeratesKeys(orders[names[i]], ms[names[i]].transitions)
  }

  /** The machines at positions before `i` have no orphans. */
  predicate CleanBefore(ms: map<string, Machine>, names: seq<string>, i: int)
    requires forall k :: 0 <= k < |names| ==> names[k] in ms
  {
    forall j :: 0 <= j < i && j < |names| ==> Scan.AllHandled(ms[names[j]])
  }

  /** The position of the first machine in visit order that has orphans. */
  function FirstOrphaned(ms: map<string, Machine>, names: seq<string>): (r: Option<nat>)
    requires forall k :: 0 <= k < |names| ==> names[k] in ms
    ensures r.None? ==> CleanBefore(ms, names, |names|)
    ensures r.Some? ==>
      && r.value < |names|
      && CleanBefore(ms, names, r.value)
      && !Scan.AllHandled(ms[names[r.value]])
  {
    if |names| == 0 then None
    else if !Scan.AllHandled(ms[names[0]]) then Some(0)
    else
      assert forall j :: 1 <= j < |names| ==> names[j] == names[1..][j - 1];
      match FirstOrphaned(ms, names[1..])
      case None => None
      case Some(i) => Some(i + 1)
  }

  /**
   * The batch check, as written: nil when no machine has orphans, otherwise
   * the report of the first machine met that has any, and only that one.
   * Go's loop stops at the first non-nil report, which is the first machine
   * with orphans.
   */
  function FindOrphansTransitions(ms: map<string, Machine>, names: seq<string>, orders: map<string, seq<State>>): (r: Option<string>)
    requires EnumeratesKeys(names, ms)
    requires OrdersFit(ms, names, orders)
    ensures r.None? <==> forall n :: n in ms ==> Scan.AllHandled(ms[n])
    ensures r.Some? ==>
      && FirstOrphaned(ms, names).Some?
      && var i := FirstOrphaned(ms, names).value;
         r == FindOrphanTransitions(names[i], ms[names[i]], orders[names[i]])
  {
    match FirstOrphaned(ms, names)
    case None =>
      assert forall n :: n in ms ==> Scan.AllHandled(ms[n]) by {
        forall n | n in ms ensures Scan.AllHandled(ms[n]) {
          var j :| 0 <= j < |names| && names[j] == n;
        }
      }
      None
    case Some(i) => FindOrphanTransitions(names[i], ms[names[i]], orders[names[i]])
  }

  /** Two optional texts joined; nil only when both are. */
  function Join(a: Option<string>, b: Option<string>): (r: Option<string>)
    ensures r.None? <==> a.None? && b.None?
  {
    if a.None? then b else if b.None? then a else Some(a.value + b.value)
  }

  /**
   * The batch check as its tests and documentation describe it: the reports
   * of every machine that has orphans, concatenated in visit order.
   */
  function AggregateOrphanReports(ms: map<string, Machine>, names: seq<string>, orders: map<string, seq<State>>): (r: Option<string>)
    requires OrdersFit(ms, names, orders)
    ensures r.None? <==> forall j :: 0 <= j < |names| ==> Scan.AllHandled(ms[names[j]])
  {
    if |names| == 0 then None
    else
      assert forall j :: 1 <= j < |names| ==> names[j] == names[1..][j - 1];
      Join(FindOrphanTransitions(names[0], ms[names[0]], orders[names[0]]), AggregateOrphanReports(ms, names[1..], orders))
  }

  /** The names of the machines that have orphans, in visit order. */
  function Orphaned(ms: map<string, Machine>, names: seq<string>): (r: seq<string>)
    requires forall k :: 0 <= k < |names| ==> names[k] in ms
    ensures |r| <= |names|
    ensures forall i :: 0 <= i < |r| ==> r[i] in names && r[i] in ms && !Scan.AllHandled(ms[r[i]])
    ensures forall j :: 0 <= j < |names| && !Scan.AllHandled(ms[names[j]]) ==> names[j] in r
  {
    if |names| == 0 then []
    else
      assert forall j :: 1 <= j < |names| ==> names[j] == names[1..][j - 1];
      (if Scan.AllHandled(ms[names[0]]) then [] else [names[0]]) + Orphaned(ms, names[1..])
  }

  /** Every listed machine has a visit order and has orphans, so it has a report. */
  predicate Reportable(ms: map<string, Machine>, ns: seq<string>, orders: map<string, seq<State>>) {
    forall i :: 0 <= i < |ns| ==>
      && ns[i] in ms && ns[i] in orders
      && EnumeratesKeys(orders[ns[i]], ms[ns[i]].transitions)
      && !Scan.AllHandled(ms[ns[i]])
  }

  /** The reports of the listed machines, one after another in list order. */
  function ReportTexts(ms: map<string, Machine>, ns: seq<string>, orders: map<string, seq<State>>): (r: string)
    requires Reportable(ms, ns, orders)
    ensures |r| == 0 <==> |ns| == 0
  {
    if |ns| == 0 then ""
    else
      assert Reportable(ms, ns[1..], orders) by {
        forall i | 0 <= i < |ns[1..]| ensures ns[1..][i] == ns[i + 1] { }
      }
      FindOrphanTransitions(ns[0], ms[ns[0]], orders[ns[0]]).value + ReportTexts(ms, ns[1..], orders)
  }

  lemma OrphanedReportable(ms: map<string, Machine>, names: seq<string>, orders: map<string, seq<State>>)
    requires OrdersFit(ms, names, orders)
    ensures Reportable(ms, Orphaned(ms, names), orders)
  {
    var r := Orphaned(ms, names);
    forall i | 0 <= i < |r|
      ensures r[i] in orders && EnumeratesKeys(orders[r[i]], ms[r[i]].transitions)
    {
      var j :| 0 <= j < |names| && names[j] == r[i];
    }
  }

  /**
   * The aggregate, pinned down whole: nil when no machine has orphans,
   * otherwise exactly the reports of the machines that have orphans,
   * concatenated in visit order and nothing else.
   */
  lemma {:induction false} AggregateIsReportsInVisitOrder(ms: map<string, Machine>, names: seq<string>, orders: map<string, seq<State>>)
    requires OrdersFit(ms, names, orders)
    ensures Reportable(ms, Orphaned(ms, names), orders)
    ensures AggregateOrphanReports(ms, names, orders)
         == if |Orphaned(ms, names)| == 0 then None else Some(ReportTexts(ms, Orphaned(ms, names), orders))
    decreases |names|
  {
    OrphanedReportable(ms, names, orders);
    if |names| > 0 {
      var rest := names[1..];
      AggregateUnfold(ms, names, orders);
      AggregateIsReportsInVisitOrder(ms, rest, orders);
      var o := Orphaned(ms, rest);
      var head := FindOrphanTransitions(names[0], ms[names[0]], orders[names[0]]);
      if Scan.AllHandled(ms[names[0]]) {
        assert Orphaned(ms, names) == o;
        assert AggregateOrphanReports(ms, names, orders) == AggregateOrphanReports(ms, rest, orders);
      } else {
        assert Orphaned(ms, names) == [names[0]] + o;
        OrphanedReportable(ms, rest, orders);
        ReportTextsCons(ms, names[0], o, orders);
        if |o| == 0 {
          assert ReportTexts(ms, [names[0]] + o, orders) == head.value + "" == head.value;
        } else {
          assert AggregateOrphanReports(ms, rest, orders) == Some(ReportTexts(ms, o, orders));
        }
      }
    }
  }

  /** One step of the aggregate and of the list of orphaned machines. */
  lemma AggregateUnfold(ms: map<string, Machine>, names: seq<string>, orders: map<string, seq<State>>)
    requires OrdersFit(ms, names, orders)
    requires |names| > 0
    ensures OrdersFit(ms, names[1..], orders)
    ensures AggregateOrphanReports(ms, names, orders)
         == Join(FindOrphanTransitions(names[0], ms[names[0]], orders[names[0]]), AggregateOrphanReports(ms, names[1..], orders))
    ensures Orphaned(ms, names)
         == (if Scan.AllHandled(ms[names[0]]) then [] else [names[0]]) + Orphaned(ms, names[1..])
  {
    assert forall j :: 1 <= j < |names| ==> names[j] == names[1..][j - 1];
  }

  /** The reports of a list that starts with `n`: `n`'s report, then the rest. */
  lemma ReportTextsCons(ms: map<string, Machine>, n: string, o: seq<string>, orders: map<string, seq<State>>)
    requires Reportable(ms, [n] + o, orders)
    ensures n in ms && n in orders && EnumeratesKeys(orders[n], ms[n].transitions) && !Scan.AllHandled(ms[n])
    ensures Reportable(ms, o, orders)
    ensures ReportTexts(ms, [n] + o, orders)
         == FindOrphanTransitions(n, ms[n], orders[n]).value + ReportTexts(ms, o, orders)
  {
    assert ([n] + o)[0] == n && ([n] + o)[1..] == o;
    assert forall i :: 0 <= i < |o| ==> o[i] == ([n] + o)[i + 1];
  }

  /** `a` occurs as a contiguous piece of `b`. */
  ghost predicate IsInfix(a: string, b: string) {
    exists p: string, q: string :: b == p + a + q
  }

  lemma InfixOfJoin(a: string, head: Option<string>, rest: Option<string>)
    requires rest.Some? && IsInfix(a, rest.value)
    ensures Join(head, rest).Some? && IsInfix(a, Join(head, rest).value)
  {
    var p: string, q: string :| rest.value == p + a + q;
    if head.Some? {
      assert Join(head, rest).value == (head.value + p) + a + q;
    }
  }

  lemma HeadOfJoin(head: Option<string>, rest: Option<string>)
    requires head.Some?
    ensures Join(head, rest).Some? && IsInfix(head.value, Join(head, rest).value)
  {
    if rest.Some? {
      assert Join(head, rest).value == "" + head.value + rest.value;
    } else {
      assert Join(head, rest).value == "" + head.value + "";
    }
  }

  /** The aggregate names every machine with orphans, with its whole report. */
  lemma {:induction false} AggregateListsEveryOrphanedMachine(ms: map<string, Machine>, names: seq<string>, orders: map<string, seq<State>>, i: nat)
    requires OrdersFit(ms, names, orders)
    requires i < |names| && !Scan.AllHandled(ms[names[i]])
    ensures AggregateOrphanReports(ms, names, orders).Some?
    ensures IsInfix(FindOrphanTransitions(names[i], ms[names[i]], orders[names[i]]).value,
                    AggregateOrphanReports(ms, names, orders).value)
    decreases i
  {
    var head := FindOrphanTransitions(names[0], ms[names[0]], orders[names[0]]);
    assert forall j :: 1 <= j < |names| ==> names[j] == names[1..][j - 1];
    var rest := AggregateOrphanReports(ms, names[1..], orders);
    assert AggregateOrphanReports(ms, names, orders) == Join(head, rest);
    if i == 0 {
      HeadOfJoin(head, rest);
    } else {
      AggregateListsEveryOrphanedMachine(ms, names[1..], orders, i - 1);
      InfixOfJoin(FindOrphanTransitions(names[i], ms[names[i]], orders[names[i]]).value, head, rest);
    }
  }

  /** What the batch check as written returns is the start of the aggregate: later reports are lost. */
  lemma {:induction false} FirstReportIsPrefixOfAggregate(ms: map<string, Machine>, names: seq<string>, orders: map<string, seq<State>>)
    requires EnumeratesKeys(names, ms)
    requires OrdersFit(ms, names, orders)
    ensures FindOrphansTransitions(ms, names, orders).Some? ==>
      && AggregateOrphanReports(ms, names, orders).Some?
      && FindOrphansTransitions(ms, names, orders).value <= AggregateOrphanReports(ms, names, orders).value
  {
    PrefixFrom(ms, names, orders);
  }

  lemma {:induction false} PrefixFrom(ms: map<string, Machine>, names: seq<string>, orders: map<string, seq<State>>)
    requires OrdersFit(ms, names, orders)
    ensures FirstOrphaned(ms, names).Some? ==>
      var i := FirstOrphaned(ms, names).value;
      && AggregateOrphanReports(ms, names, orders).Some?
      && FindOrphanTransitions(names[i], ms[names[i]], orders[names[i]]).value <= AggregateOrphanReports(ms, names, orders).value
    decreases |names|
  {
    if |names| > 0 {
      assert forall j :: 1 <= j < |names| ==> names[j] == names[1..][j - 1];
      var head := FindOrphanTransitions(names[0], ms[names[0]], orders[names[0]]);
      var rest := AggregateOrphanReports(ms, names[1..], orders);
      assert AggregateOrphanReports(ms, names, orders) == Join(head, rest);
      if Scan.AllHandled(ms[names[0]]) {
        PrefixFrom(ms, names[1..], orders);
      }
    }
  }
}

=== FILE: pipe.dfy ===
/**
 * Composition of machine transforms (pipe.go): each transform receives the
 * machine the previous one returned, left to right.
 */
module Compose {
  import opened Common
  import opened Fsm

  function Pipe(m: Machine, transforms: seq<Machine -> Machine>): (r: Machine)
    ensures |transforms| == 0 ==> r == m
    ensures |transforms| > 0 ==>
      r == transforms[|transforms| - 1](Pipe(m, transforms[..|transforms| - 1]))
    decreases |transforms|
  {
    if |transforms| == 0 then m
    else
      var n := |transforms|;
      var rest := transforms[1..];
      assert n > 1 ==> rest[..n - 2] == transforms[..n - 1][1..];
      assert n == 1 ==> transforms[..n - 1] == [];
      Pipe(transforms[0](m), rest)
  }

  lemma PipeSingle(m: Machine, f: Machine -> Machine)
    ensures Pipe(m, [f]) == f(m)
  {
    assert [f][..0] == [];
  }

  lemma PipeTwo(m: Machine, f: Machine -> Machine, g: Machine -> Machine)
    ensures Pipe(m, [f, g]) == g(f(m))
  {
    assert [f, g][..1] == [f];
    PipeSingle(m, f);
  }

  /** Piping through `fs ++ gs` is piping through `fs`, then through `gs`. */
  lemma {:induction false} PipeAppend(m: Machine, fs: seq<Machine -> Machine>, gs: seq<Machine -> Machine>)
    ensures Pipe(m, fs + gs) == Pipe(Pipe(m, fs), gs)
    decreases |fs|
  {
    if |fs| == 0 {
      assert fs + gs == gs;
    } else {
      assert (fs + gs)[0] == fs[0];
      assert (fs + gs)[1..] == fs[1..] + gs;
      PipeAppend(fs[0](m), fs[1..], gs);
    }
  }

  /** The transform `m => m.From(s).On(e).To(d); return m`. */
  function AddRule(s: State, e: Event, d: State): (f: Machine -> Machine)
    ensures forall m :: s in f(m).transitions && f(m).transitions[s] == RulesFrom(m, s) + [TransitionRule(s, d, e.ty.kind, None)]
    ensures forall m :: f(m).state == m.state && f(m).handlers == m.handlers
  {
    m => To(m, On(From(s), e), d)
  }

  lemma AddRuleThenSelect(before: Machine, s: State, e: Event, d: State, guards: GuardOracle)
    requires before.state == s
    requires forall j :: 0 <= j < |RulesFrom(before, s)| ==> !Matches(RulesFrom(before, s)[j], e, guards)
    ensures FindValidTransition(To(before, On(From(s), e), d), e, guards) == Ok(TransitionRule(s, d, e.ty.kind, None))
  {
    var after := To(before, On(From(s), e), d);
    var old_rules := RulesFrom(before, s);
    var rules := after.transitions[s];
    var k := |old_rules|;
    assert rules[k] == TransitionRule(s, d, e.ty.kind, None);
    assert forall j :: 0 <= j < k ==> rules[j] == old_rules[j];
    assert IsFirstMatch(rules, e, guards, k);
    var r := FindValidTransition(after, e, guards);
    var i :| IsFirstMatch(rules, e, guards, i) && r.value == rules[i];
    FirstMatchIsUnique(rules, e, guards, i, k);
  }

  /**
   * A rule added by a later transform is selected by a dispatch from its
   * source state when no earlier rule of that state is eligible for the event.
   */
  lemma AddedRuleIsSelectable(m: Machine, fs: seq<Machine -> Machine>, s: State, e: Event, d: State, guards: GuardOracle)
    requires Pipe(m, fs).state == s
    requires forall j :: 0 <= j < |RulesFrom(Pipe(m, fs), s)| ==> !Matches(RulesFrom(Pipe(m, fs), s)[j], e, guards)
    ensures FindValidTransition(Pipe(m, fs + [AddRule(s, e, d)]), e, guards) == Ok(TransitionRule(s, d, e.ty.kind, None))
  {
    var f := AddRule(s, e, d);
    PipeAppend(m, fs, [f]);
    PipeSingle(Pipe(m, fs), f);
    assert f(Pipe(m, fs)) == To(Pipe(m, fs), On(From(s), e), d);
    AddRuleThenSelect(Pipe(m, fs), s, e, d, guards);
  }
}

=== FILE: register.dfy ===
/**
 * Handler registration (register.go): the registry entry for the kind of
 * event type T is overwritten with the new handler, tagged with T. Nothing
 * checks whether any rule uses that kind.
 */
module Registry {
  import opened Common
  import opened Fsm
  import opened OrphanScan

  function RegisterHandler(m: Machine, t: EventType, h: HandlerId): (r: Machine)
    ensures t.kind in r.handlers && r.handlers[t.kind] == HandlerTag(t.typeId, h)
    ensures r.handlers.Keys == m.handlers.Keys + {t.kind}
    ensures forall k :: k in m.handlers && k != t.kind ==> r.handlers[k] == m.handlers[k]
    ensures r.state == m.state && r.transitions == m.transitions
    ensures r.pre == m.pre && r.post == m.post
  {
    m.(handlers := m.handlers[t.kind := HandlerTag(t.typeId, h)])
  }

  /** Registering the same handler twice is the same as registering it once. */
  lemma RegisterIdempotent(m: Machine, t: EventType, h: HandlerId)
    ensures RegisterHandler(RegisterHandler(m, t, h), t, h) == RegisterHandler(m, t, h)
  {
  }

  /** A second registration for the same kind replaces the first: the last one wins. */
  lemma LastRegistrationWins(m: Machine, t1: EventType, h1: HandlerId, t2: EventType, h2: HandlerId)
    requires t1.kind == t2.kind
    ensures RegisterHandler(RegisterHandler(m, t1, h1), t2, h2) == RegisterHandler(m, t2, h2)
  {
  }

  /** Registrations for different kinds do not interfere. */
  lemma DistinctKindsCommute(m: Machine, t1: EventType, h1: HandlerId, t2: EventType, h2: HandlerId)
    requires t1.kind != t2.kind
    ensures RegisterHandler(RegisterHandler(m, t1, h1), t2, h2) == RegisterHandler(RegisterHandler(m, t2, h2), t1, h1)
  {
  }

  /**
   * A registration made between `From` and `To` is kept: filing a rule and
   * registering a handler touch different parts of the machine, in either order.
   */
  lemma RegisterCommutesWithTo(m: Machine, b: Builder, d: State, t: EventType, h: HandlerId)
    ensures To(RegisterHandler(m, t, h), b, d) == RegisterHandler(To(m, b, d), t, h)
    ensures To(RegisterHandler(m, t, h), b, d).handlers[t.kind] == HandlerTag(t.typeId, h)
  {
  }

  lemma RegisterPreservesWellFormed(m: Machine, t: EventType, h: HandlerId)
    requires WellFormed(m)
    ensures WellFormed(RegisterHandler(m, t, h))
  {
  }

  /** The elements of `xs` whose kind is not `k`, in order. */
  function DropKind(xs: seq<TransitionRule>, k: Kind): (r: seq<TransitionRule>)
    ensures forall x :: x in r <==> x in xs && x.kind != k
  {
    if |xs| == 0 then []
    else (if xs[0].kind == k then [] else [xs[0]]) + DropKind(xs[1..], k)
  }

  lemma {:induction false} DropKindAppend(a: seq<TransitionRule>, b: seq<TransitionRule>, k: Kind)
    ensures DropKind(a + b, k) == DropKind(a, k) + DropKind(b, k)
    decreases |a|
  {
    if |a| == 0 {
      assert a + b == b;
    } else {
      var head := if a[0].kind == k then [] else [a[0]];
      assert (a + b)[0] == a[0];
      assert (a + b)[1..] == a[1..] + b;
      calc {
        DropKind(a + b, k);
        head + DropKind(a[1..] + b, k);
        { DropKindAppend(a[1..], b, k); }
        head + (DropKind(a[1..], k) + DropKind(b, k));
      }
    }
  }

  lemma {:induction false} OrphansInRegister(from: State, rules: seq<TransitionRule>, handlers: map<Kind, HandlerTag>, k: Kind, tag: HandlerTag)
    ensures OrphansIn(from, rules, handlers[k := tag]) == DropKind(OrphansIn(from, rules, handlers), k)
    decreases |rules|
  {
    if |rules| > 0 {
      OrphansInRegister(from, rules[1..], handlers, k, tag);
      var rest := OrphansIn(from, rules[1..], handlers);
      if rules[0].kind !in handlers {
        var copy := rules[0].(from := from);
        assert OrphansIn(from, rules, handlers) == [copy] + rest;
        assert ([copy] + rest)[1..] == rest;
      }
    }
  }

  lemma {:induction false} CollectRegister(m: Machine, order: seq<State>, t: EventType, h: HandlerId)
    requires forall i :: 0 <= i < |order| ==> order[i] in m.transitions
    ensures CollectOrphans(RegisterHandler(m, t, h), order) == DropKind(CollectOrphans(m, order), t.kind)
    decreases |order|
  {
    if |order| > 0 {
      var m' := RegisterHandler(m, t, h);
      var s := order[0];
      CollectRegister(m, order[1..], t, h);
      OrphansInRegister(s, m.transitions[s], m.handlers, t.kind, HandlerTag(t.typeId, h));
      DropKindAppend(OrphansIn(s, m.transitions[s], m.handlers), CollectOrphans(m, order[1..]), t.kind);
    }
  }

  /**
   * Registering a kind removes exactly the orphans of that kind and leaves
   * the others, in the same order.
   */
  lemma RegisterRemovesOrphansOfKind(m: Machine, order: seq<State>, t: EventType, h: HandlerId)
    requires EnumeratesKeys(order, m.transitions)
    ensures EnumeratesKeys(order, RegisterHandler(m, t, h).transitions)
    ensures FindOrphanTransitions(RegisterHandler(m, t, h), order) == DropKind(FindOrphanTransitions(m, order), t.kind)
  {
    CollectRegister(m, order, t, h);
  }
}

=== FILE: scenarios.dfy ===
/**
 * Concrete runs: the example program (basic_usage.go) and the fixtures of
 * state_test.go, replayed against the model. Where a test expects something
 * the code does not do, the lemma states what the code does.
 */
module Scenarios {
  import opened Common
  import opened Fsm
  import opened OrphanScan
  import opened Registry
  import opened Exec
  import opened Compose
  import Orphans

  const StartEvent := EventType(1, "StartEvent")
  const StopEvent := EventType(2, "StopEvent")
  const EventA := EventType(3, "EventA")
  const EventB := EventType(4, "EventB")
  const UnlockEvent := EventType(5, "UnlockEvent")
  const UndefinedEvent := EventType(6, "UndefinedEvent")
  const NoTransitionEvent := EventType(7, "NoTransitionEvent")
  const ComplexEvent := EventType(8, "ComplexEvent")
  const MultiHandlerEvent := EventType(9, "MultiHandlerEvent")
  const FaultyEvent := EventType(10, "FaultyEvent")
  const DefinedEvent := EventType(11, "DefinedEvent")
  const EventWithHandler := EventType(12, "EventWithHandler")
  const ResetEvent := EventType(13, "ResetEvent")

  /** An event of type `t` with an empty payload. */
  function Ev(t: EventType): Event {
    Event(t, 0)
  }

  /** `m.From(s).On(t{}).When(g).To(d)`, without `When` when `g` is None. */
  function Declare(m: Machine, s: State, t: EventType, g: Option<GuardId>, d: State): Machine {
    To(m, When(On(From(s), Ev(t)), g), d)
  }

  /** Every guard, hook and handler accepts. */
  const Permissive := Oracles((g, e) => true, (h, e) => Pass, (h, e) => Pass)

  function BasicUsageMachine(): Machine {
    var m := NewStateMachine("Idle");
    var m := RegisterHandler(m, StartEvent, 1);
    var m := RegisterHandler(m, StopEvent, 2);
    var m := Declare(m, "Idle", StartEvent, None, "Running");
    Declare(m, "Running", StopEvent, None, "Idle")
  }

  /** The example program: Idle, StartEvent to Running, StopEvent back to Idle. */
  lemma BasicUsageGoesIdleRunningIdle()
    ensures var m := BasicUsageMachine();
      var d1 := Execute(m, Ev(StartEvent), Permissive, m.state);
      var d2 := Execute(d1.machine, Ev(StopEvent), Permissive, d1.machine.state);
      && d1.err.None? && d1.machine.state == "Running"
      && d2.err.None? && d2.machine.state == "Idle"
  {
    var m := BasicUsageMachine();
    assert m.transitions["Idle"] == [TransitionRule("Idle", "Running", "StartEvent", None)];
    assert m.transitions["Running"] == [TransitionRule("Running", "Idle", "StopEvent", None)];
    assert FirstMatch(m.transitions["Idle"], Ev(StartEvent), Permissive.guard) == Some(0);
    assert FirstMatch(m.transitions["Running"], Ev(StopEvent), Permissive.guard) == Some(0);
  }

  function LockMachine(): Machine {
    var m := NewStateMachine("Locked");
    var m := RegisterHandler(m, UnlockEvent, 1);
    Declare(m, "Locked", UnlockEvent, Some(1), "Unlocked")
  }

  /** Guard 1 accepts an unlock event carrying code 1234. */
  const CodeGuard := Oracles((g: GuardId, e: Event) => g == 1 && e.payload == 1234, (h, e) => Pass, (h, e) => Pass)

  /** A guard that rejects keeps the machine Locked; the right code unlocks it. */
  lemma GuardedUnlock()
    ensures var m := LockMachine();
      var bad := Execute(m, Event(UnlockEvent, 1111), CodeGuard, m.state);
      var good := Execute(m, Event(UnlockEvent, 1234), CodeGuard, m.state);
      && bad.err == Some(NoValidTransition("UnlockEvent", "Locked")) && bad.machine.state == "Locked"
      && good.err.None? && good.machine.state == "Unlocked"
  {
    var m := LockMachine();
    assert m.transitions["Locked"] == [TransitionRule("Locked", "Unlocked", "UnlockEvent", Some(1))];
    assert FirstMatch(m.transitions["Locked"], Event(UnlockEvent, 1234), CodeGuard.guard) == Some(0);
  }

  /** Guard 1 always accepts, guard 2 always rejects. */
  const TrueThenFalse := Oracles((g, e) => g == 1, (h, e) => Pass, (h, e) => Pass)

  /** `When(true).When(false)` keeps only the rejecting guard, so nothing fires. */
  lemma LaterGuardBlocks()
    ensures var m := NewStateMachine("Start");
      var m := RegisterHandler(m, ComplexEvent, 1);
      var m := To(m, When(When(On(From("Start"), Ev(ComplexEvent)), Some(1)), Some(2)), "End");
      var d := Execute(m, Ev(ComplexEvent), TrueThenFalse, m.state);
      d.err == Some(NoValidTransition("ComplexEvent", "Start")) && d.machine.state == "Start"
  {
  }

  function ErrorHandlingMachine(): Machine {
    var m := NewStateMachine("Initial");
    var m := RegisterHandler(m, DefinedEvent, 1);
    var m := Declare(m, "Initial", DefinedEvent, None, "DefinedState");
    Declare(m, "Initial", UndefinedEvent, None, "UndefinedState")
  }

  /**
   * A kind with a rule but no handler fails "no handler registered"; a
   * handled kind moves on; a state without rules fails "no transitions
   * defined" even when the kind has a handler.
   */
  lemma ErrorHandling()
    ensures var m := ErrorHandlingMachine();
      var d1 := Execute(m, Ev(UndefinedEvent), Permissive, m.state);
      var d2 := Execute(m, Ev(DefinedEvent), Permissive, m.state);
      var m3 := RegisterHandler(d2.machine, NoTransitionEvent, 2);
      var d3 := Execute(m3, Ev(NoTransitionEvent), Permissive, m3.state);
      && d1.err == Some(NoHandlerRegistered("UndefinedEvent")) && d1.machine == m
      && d2.err.None? && d2.machine.state == "DefinedState"
      && d3.err == Some(NoTransitionsDefined("DefinedState"))
  {
    var m := ErrorHandlingMachine();
    var rules := [TransitionRule("Initial", "DefinedState", "DefinedEvent", None),
                  TransitionRule("Initial", "UndefinedState", "UndefinedEvent", None)];
    assert m.transitions["Initial"] == rules;
    assert FirstMatch(rules, Ev(UndefinedEvent), Permissive.guard) == Some(1);
    assert FirstMatch(rules, Ev(DefinedEvent), Permissive.guard) == Some(0);
    assert "UndefinedEvent" !in m.handlers;
  }

  /** A failing handler reports "handler execution failed" and the state stays Initial. */
  lemma FailedHandlerKeepsState()
    ensures var m := NewStateMachine("Initial");
      var m := RegisterHandler(m, FaultyEvent, 1);
      var m := Declare(m, "Initial", FaultyEvent, None, "NextState");
      var o := Oracles((g, e) => true, (h, e) => Pass, (h, e) => Fail("handler failed"));
      var d := Execute(m, Ev(FaultyEvent), o, m.state);
      d.err == Some(HandlerExecutionFailed("handler failed")) && d.machine.state == "Initial"
  {
  }

  /**
   * Registering two handlers for one event type and dispatching runs the
   * second one and succeeds: the registry entry is simply overwritten.
   * (The fixture at state_test.go:459-482 expects "invalid handler type".)
   */
  lemma ReRegistrationDispatchesLatest()
    ensures var m := NewStateMachine("Start");
      var m := RegisterHandler(m, MultiHandlerEvent, 1);
      var m := RegisterHandler(m, MultiHandlerEvent, 2);
      var m := Declare(m, "Start", MultiHandlerEvent, None, "Middle");
      var d := Execute(m, Ev(MultiHandlerEvent), Permissive, m.state);
      && d.err.None? && d.machine.state == "Middle"
      && d.ran.handler == Some(HandlerTag(MultiHandlerEvent.typeId, 2))
  {
  }

  /**
   * Overwriting the state with one that has no rules makes the next
   * dispatch fail "no transitions defined". (The fixture at
   * state_test.go:547-570 expects success.)
   */
  lemma DispatchFromUndeclaredStateFails()
    ensures var m := NewStateMachine("Initial");
      var m := RegisterHandler(m, ResetEvent, 1);
      var m := Declare(m, "Initial", ResetEvent, None, "Initial");
      var m := m.(state := "Changed");
      var d := Execute(m, Ev(ResetEvent), Permissive, m.state);
      d.err == Some(NoTransitionsDefined("Changed")) && d.machine.state == "Changed"
  {
  }

  function SelfLoopMachine(): Machine {
    var m := NewStateMachine("Idle");
    var m := RegisterHandler(m, EventA, 1);
    var m := RegisterHandler(m, EventB, 2);
    var m := Declare(m, "Idle", EventA, None, "Idle");
    Declare(m, "Idle", EventB, None, "Idle")
  }

  /** Self-loops on two kinds: both dispatches succeed and leave the machine as it was. */
  lemma SelfLoopKeepsState()
    ensures var m := SelfLoopMachine();
      var d1 := Execute(m, Ev(EventA), Permissive, m.state);
      var d2 := Execute(d1.machine, Ev(EventB), Permissive, d1.machine.state);
      && d1.err.None? && d1.machine == m
      && d2.err.None? && d2.machine == m
  {
    var m := SelfLoopMachine();
    var rules := [TransitionRule("Idle", "Idle", "EventA", None), TransitionRule("Idle", "Idle", "EventB", None)];
    assert m.transitions["Idle"] == rules;
    assert FirstMatch(rules, Ev(EventA), Permissive.guard) == Some(0);
    assert FirstMatch(rules, Ev(EventB), Permissive.guard) == Some(1);
  }

  /** The transform that returns its machine as is. */
  const Unchanged: Machine -> Machine := (m: Machine) => m

  /** The middleware fixture: a base machine piped through a rule-adding transform and an identity. */
  function PipedMachine(): Machine {
    Pipe(NewStateMachine("BaseState"), [AddRule("BaseState", Ev(EventA), "AddedByMiddleware"), Unchanged])
  }

  /** A trailing identity transform changes nothing. */
  lemma PipeThenUnchanged(m: Machine, f: Machine -> Machine)
    ensures Pipe(m, [f, Unchanged]) == Pipe(m, [] + [f])
  {
    PipeTwo(m, f, Unchanged);
    PipeSingle(m, f);
    assert [] + [f] == [f];
  }

  lemma PipedMachineSelectsAddedRule()
    ensures PipedMachine().state == "BaseState" && PipedMachine().pre == [] && PipedMachine().post == []
    ensures FindValidTransition(PipedMachine(), Ev(EventA), Permissive.guard)
         == Ok(TransitionRule("BaseState", "AddedByMiddleware", "EventA", None))
  {
    var base := NewStateMachine("BaseState");
    PipeThenUnchanged(base, AddRule("BaseState", Ev(EventA), "AddedByMiddleware"));
    AddedRuleIsSelectable(base, [], "BaseState", Ev(EventA), "AddedByMiddleware", Permissive.guard);
    PipeSingle(base, AddRule("BaseState", Ev(EventA), "AddedByMiddleware"));
  }

  /** A transform passed to Pipe adds a rule that a later dispatch takes. */
  lemma PipeAddedRuleFires()
    ensures var m := RegisterHandler(PipedMachine(), EventA, 1);
      var d := Execute(m, Ev(EventA), Permissive, m.state);
      d.err.None? && d.machine.state == "AddedByMiddleware"
  {
    PipedMachineSelectsAddedRule();
    var m := RegisterHandler(PipedMachine(), EventA, 1);
    assert FindValidTransition(m, Ev(EventA), Permissive.guard) == FindValidTransition(PipedMachine(), Ev(EventA), Permissive.guard);
  }

  /** A scan of a machine whose rules all sit under one state `s`. */
  lemma ScanOneState(m: Machine, s: State)
    requires m.transitions.Keys == {s}
    ensures EnumeratesKeys([s], m.transitions)
    ensures FindOrphanTransitions(m, [s]) == OrphansIn(s, m.transitions[s], m.handlers)
  {
    assert CollectOrphans(m, [s]) == OrphansIn(s, m.transitions[s], m.handlers) + CollectOrphans(m, [s][1..]);
  }

  /** The orphans of a two-rule list filed under the rules' own source state. */
  lemma OrphansOfPair(s: State, a: TransitionRule, b: TransitionRule, h: map<Kind, HandlerTag>)
    requires a.from == s && b.from == s
    ensures OrphansIn(s, [a, b], h) == (if a.kind in h then [] else [a]) + (if b.kind in h then [] else [b])
  {
    assert [a, b][1..] == [b];
    assert [b][1..] == [];
  }

  function OrphanTestMachine(): Machine {
    var m := NewStateMachine("Start");
    var m := RegisterHandler(m, EventWithHandler, 1);
    var m := Declare(m, "Start", EventWithHandler, None, "HandledState");
    Declare(m, "Start", UndefinedEvent, None, "OrphanState")
  }

  /** Only the rule without a handler is reported. */
  lemma OneOrphanFound()
    ensures EnumeratesKeys(["Start"], OrphanTestMachine().transitions)
    ensures FindOrphanTransitions(OrphanTestMachine(), ["Start"])
         == [TransitionRule("Start", "OrphanState", "UndefinedEvent", None)]
  {
    var m := OrphanTestMachine();
    var a := TransitionRule("Start", "HandledState", "EventWithHandler", None);
    var b := TransitionRule("Start", "OrphanState", "UndefinedEvent", None);
    assert m.transitions.Keys == {"Start"};
    assert m.transitions["Start"] == [a, b];
    assert m.handlers.Keys == {"EventWithHandler"};
    ScanOneState(m, "Start");
    OrphansOfPair("Start", a, b, m.handlers);
  }

  function SM1(): Machine {
    var m := NewStateMachine("State1");
    var m := RegisterHandler(m, EventA, 1);
    Declare(m, "State1", EventA, None, "State2")
  }

  function SM2(): Machine {
    var m := NewStateMachine("StateA");
    var m := RegisterHandler(m, EventB, 2);
    var m := Declare(m, "StateA", EventB, None, "StateB");
    Declare(m, "StateA", UndefinedEvent, None, "StateC")
  }

  function SM3(): Machine {
    var m := NewStateMachine("Start");
    var m := Declare(m, "Start", UndefinedEvent, None, "End");
    Declare(m, "Start", NoTransitionEvent, None, "NoEnd")
  }

  function Fixture(): map<string, Machine> {
    FixtureOf(SM1(), SM2(), SM3())
  }

  function FixtureOf(a: Machine, b: Machine, c: Machine): map<string, Machine> {
    map["SM1" := a, "SM2" := b, "SM3" := c]
  }

  const FixtureNames: seq<string> := ["SM1", "SM2", "SM3"]

  const FixtureOrders: map<string, seq<State>> := map["SM1" := ["State1"], "SM2" := ["StateA"], "SM3" := ["Start"]]

  /** "SM2 has orphan transitions:\nUndefinedEvent\n" */
  const SM2Report: string := "SM2" + Orphans.Header + ("UndefinedEvent" + "\n")

  /** "SM3 has orphan transitions:\nUndefinedEvent\nNoTransitionEvent\n" */
  const SM3Report: string := "SM3" + Orphans.Header + ("UndefinedEvent" + "\n" + ("NoTransitionEvent" + "\n"))

  /** The text the fixture expects: both reports, SM2's first. */
  const ExpectedAggregate: string :=
    "SM2" + Orphans.Header + "UndefinedEvent" + "\n" + "SM3" + Orphans.Header + "UndefinedEvent" + "\n" + "NoTransitionEvent" + "\n"

  lemma SM1Report()
    ensures EnumeratesKeys(["State1"], SM1().transitions)
    ensures AllHandled(SM1())
    ensures Orphans.FindOrphanTransitions("SM1", SM1(), ["State1"]) == None
  {
    var m := SM1();
    assert m.transitions.Keys == {"State1"};
    assert m.transitions["State1"] == [TransitionRule("State1", "State2", "EventA", None)];
    assert "EventA" in m.handlers;
    ScanOneState(m, "State1");
  }

  lemma SM2Orphans()
    ensures EnumeratesKeys(["StateA"], SM2().transitions)
    ensures FindOrphanTransitions(SM2(), ["StateA"]) == [TransitionRule("StateA", "StateC", "UndefinedEvent", None)]
  {
    var m := SM2();
    var a := TransitionRule("StateA", "StateB", "EventB", None);
    var b := TransitionRule("StateA", "StateC", "UndefinedEvent", None);
    assert m.transitions.Keys == {"StateA"};
    assert m.transitions["StateA"] == [a, b];
    assert m.handlers.Keys == {"EventB"};
    ScanOneState(m, "StateA");
    OrphansOfPair("StateA", a, b, m.handlers);
  }

  lemma SM2Reported()
    ensures EnumeratesKeys(["StateA"], SM2().transitions)
    ensures !AllHandled(SM2())
    ensures Orphans.FindOrphanTransitions("SM2", SM2(), ["StateA"]) == Some(SM2Report)
  {
    SM2Orphans();
    KindLinesOfOne(TransitionRule("StateA", "StateC", "UndefinedEvent", None));
  }

  lemma SM3Orphans()
    ensures EnumeratesKeys(["Start"], SM3().transitions)
    ensures FindOrphanTransitions(SM3(), ["Start"])
         == [TransitionRule("Start", "End", "UndefinedEvent", None), TransitionRule("Start", "NoEnd", "NoTransitionEvent", None)]
  {
    var m := SM3();
    SM3Shape();
    ScanOneState(m, "Start");
    OrphansOfPair("Start", TransitionRule("Start", "End", "UndefinedEvent", None),
                  TransitionRule("Start", "NoEnd", "NoTransitionEvent", None), m.handlers);
  }

  lemma SM3Shape()
    ensures SM3().transitions.Keys == {"Start"}
    ensures SM3().transitions["Start"]
         == [TransitionRule("Start", "End", "UndefinedEvent", None), TransitionRule("Start", "NoEnd", "NoTransitionEvent", None)]
    ensures SM3().handlers.Keys == {}
  {
  }

  lemma SM3Reported()
    ensures EnumeratesKeys(["Start"], SM3().transitions)
    ensures !AllHandled(SM3())
    ensures Orphans.FindOrphanTransitions("SM3", SM3(), ["Start"]) == Some(SM3Report)
  {
    SM3Orphans();
    KindLinesOfTwo(TransitionRule("Start", "End", "UndefinedEvent", None), TransitionRule("Start", "NoEnd", "NoTransitionEvent", None));
  }

  /** The report text for one orphan: its kind on a line of its own. */
  lemma KindLinesOfOne(x: TransitionRule)
    ensures Orphans.KindLines([x]) == x.kind + "\n"
  {
    assert [x][1..] == [];
  }

  /** The report text for two orphans: two lines, in order. */
  lemma KindLinesOfTwo(x: TransitionRule, y: TransitionRule)
    ensures Orphans.KindLines([x, y]) == x.kind + "\n" + (y.kind + "\n")
  {
    assert [x, y][1..] == [y];
    KindLinesOfOne(y);
  }

  lemma FixtureEntries()
    ensures Fixture().Keys == {"SM1", "SM2", "SM3"}
    ensures Fixture()["SM1"] == SM1() && Fixture()["SM2"] == SM2() && Fixture()["SM3"] == SM3()
  {
    FixtureOfEntries(SM1(), SM2(), SM3());
  }

  /** The batch's three entries, stated for any three machines. */
  lemma FixtureOfEntries(a: Machine, b: Machine, c: Machine)
    ensures FixtureOf(a, b, c).Keys == {"SM1", "SM2", "SM3"}
    ensures FixtureOf(a, b, c)["SM1"] == a && FixtureOf(a, b, c)["SM2"] == b && FixtureOf(a, b, c)["SM3"] == c
  {
  }

  lemma FixtureNamesDistinct()
    ensures Distinct(FixtureNames)
  {
    assert "SM1"[2] != "SM2"[2] && "SM1"[2] != "SM3"[2] && "SM2"[2] != "SM3"[2];
  }

  lemma FixtureNamesCover()
    ensures forall k :: k in Fixture() ==> k in FixtureNames
    ensures forall i :: 0 <= i < |FixtureNames| ==> FixtureNames[i] in Fixture()
  {
    FixtureEntries();
  }

  lemma FixtureEnumerated()
    ensures EnumeratesKeys(FixtureNames, Fixture())
  {
    FixtureNamesDistinct();
    FixtureNamesCover();
  }

  lemma FixtureOrdersFit()
    ensures Orphans.OrdersFit(Fixture(), FixtureNames, FixtureOrders)
  {
    FixtureEntries();
    forall i | 0 <= i < |FixtureNames|
      ensures FixtureNames[i] in Fixture() && FixtureNames[i] in FixtureOrders
      ensures EnumeratesKeys(FixtureOrders[FixtureNames[i]], Fixture()[FixtureNames[i]].transitions)
    {
      if i == 0 {
        SM1Report();
      } else if i == 1 {
        SM2Reported();
      } else {
        SM3Reported();
      }
    }
  }

  /** One step of the aggregate: the first machine's report joined to the rest. */
  lemma AggregateStep(ms: map<string, Machine>, names: seq<string>, orders: map<string, seq<State>>)
    requires Orphans.OrdersFit(ms, names, orders)
    requires |names| > 0
    ensures Orphans.OrdersFit(ms, names[1..], orders)
    ensures Orphans.AggregateOrphanReports(ms, names, orders)
         == Orphans.Join(Orphans.FindOrphanTransitions(names[0], ms[names[0]], orders[names[0]]),
                         Orphans.AggregateOrphanReports(ms, names[1..], orders))
  {
    assert forall j :: 1 <= j < |names| ==> names[j] == names[1..][j - 1];
  }

  /** A batch of three where only the second and third machines have orphans. */
  lemma BatchOfThree(ms: map<string, Machine>, names: seq<string>, orders: map<string, seq<State>>)
    requires EnumeratesKeys(names, ms)
    requires Orphans.OrdersFit(ms, names, orders)
    requires |names| == 3
    requires AllHandled(ms[names[0]]) && !AllHandled(ms[names[1]]) && !AllHandled(ms[names[2]])
    ensures Orphans.FindOrphansTransitions(ms, names, orders)
         == Orphans.FindOrphanTransitions(names[1], ms[names[1]], orders[names[1]])
    ensures Orphans.AggregateOrphanReports(ms, names, orders)
         == Some(Orphans.FindOrphanTransitions(names[1], ms[names[1]], orders[names[1]]).value
                 + Orphans.FindOrphanTransitions(names[2], ms[names[2]], orders[names[2]]).value)
  {
    var n1 := names[1..];
    assert n1[0] == names[1];
    assert Orphans.FirstOrphaned(ms, n1) == Some(0);
    AggregateStep(ms, names, orders);
    AggregateStep(ms, n1, orders);
    AggregateStep(ms, n1[1..], orders);
    assert n1[1..][0] == names[2] && |n1[1..][1..]| == 0;
  }

  lemma FixtureBatch()
    ensures EnumeratesKeys(FixtureNames, Fixture())
    ensures Orphans.OrdersFit(Fixture(), FixtureNames, FixtureOrders)
    ensures Orphans.FindOrphansTransitions(Fixture(), FixtureNames, FixtureOrders) == Some(SM2Report)
    ensures Orphans.AggregateOrphanReports(Fixture(), FixtureNames, FixtureOrders) == Some(SM2Report + SM3Report)
  {
    var ms := Fixture();
    FixtureEnumerated();
    FixtureOrdersFit();
    FixtureEntries();
    SM1Report();
    SM2Reported();
    SM3Reported();
    assert FixtureNames[0] == "SM1" && FixtureNames[1] == "SM2" && FixtureNames[2] == "SM3";
    assert FixtureOrders["SM2"] == ["StateA"] && FixtureOrders["SM3"] == ["Start"];
    assert AllHandled(ms[FixtureNames[0]]);
    assert !AllHandled(ms[FixtureNames[1]]) && !AllHandled(ms[FixtureNames[2]]);
    BatchOfThree(ms, FixtureNames, FixtureOrders);
  }

  /**
   * The batch check as written returns SM2's report alone when SM1, SM2, SM3
   * are visited in that order, not the text the fixture expects.
   */
  lemma BatchReturnsFirstReportOnly()
    ensures EnumeratesKeys(FixtureNames, Fixture())
    ensures Orphans.OrdersFit(Fixture(), FixtureNames, FixtureOrders)
    ensures Orphans.FindOrphansTransitions(Fixture(), FixtureNames, FixtureOrders) == Some(SM2Report)
    ensures SM2Report != ExpectedAggregate
  {
    FixtureBatch();
    SM2Reported();
    assert |SM2Report| < |ExpectedAggregate|;
  }

  /**
   * Associativity over abstract strings: the same equation over the
   * fixture's literals is too costly for the verifier.
   */
  lemma Regroup(n2: string, h: string, u: string, nl: string, n3: string, t: string)
    ensures n2 + h + (u + nl) + (n3 + h + (u + nl + (t + nl))) == n2 + h + u + nl + n3 + h + u + nl + t + nl
  {
  }

  /** The aggregate lists SM2 and SM3 and leaves out SM1, as the fixture expects. */
  lemma AggregateMatchesFixture()
    ensures Orphans.OrdersFit(Fixture(), FixtureNames, FixtureOrders)
    ensures Orphans.AggregateOrphanReports(Fixture(), FixtureNames, FixtureOrders) == Some(ExpectedAggregate)
  {
    FixtureBatch();
    SM2Reported();
    SM3Reported();
    Regroup("SM2", Orphans.Header, "UndefinedEvent", "\n", "SM3", "NoTransitionEvent");
  }
}

=== FILE: state.dfy ===
/**
 * The state machine's data model, its fluent builder, and the rule-selection
 * scan that dispatch runs under the lock (state.go).
 *
 * Go's StateMachine is a pointer guarded by a mutex; here a machine is an
 * immutable record and every Go method that mutates it returns the updated
 * record. Reading the current state (GetCurrentState) is the field `state`.
 */
module Fsm {
  import opened Common

  /** A state label, compared by value. */
  type State = string

  /** The string an event type's EventType method returns. */
  type Kind = string

  /** Identity of a Go event type: the T of `Handler[T]`. */
  type TypeId = nat

  /** Identity of a handler value. */
  type HandlerId = nat

  /**
   * The identity of a nil handler, as in `var h Handler[T]`. Registering it
   * stores a nil `any`, which no type assertion accepts.
   */
  const NilHandler: HandlerId := 0

  /** Identity of a pre- or post-transition middleware function. */
  type HookId = nat

  /** Identity of a guard function. */
  type GuardId = nat

  /** The error value a hook or a handler returned. */
  type Cause = string

  /**
   * A Go event type. Two distinct types may return the same kind string, so
   * the entry found for a kind may have been registered for another type.
   */
  datatype EventType = EventType(typeId: TypeId, kind: Kind)

  /** An event value: its type, and a payload only guards and handlers look at. */
  datatype Event = Event(ty: EventType, payload: int)

  /** One declared transition; `guard` is None for an unguarded rule. */
  datatype TransitionRule = TransitionRule(from: State, to: State, kind: Kind, guard: Option<GuardId>)

  /** A registry entry: the handler and the event type it was registered for. */
  datatype HandlerTag = HandlerTag(typeId: TypeId, handler: HandlerId)

  /**
   * The machine: current state, rules per source state in declaration
   * order, handler registry keyed by kind, and the middleware lists.
   */
  datatype Machine = Machine(
    state: State,
    transitions: map<State, seq<TransitionRule>>,
    handlers: map<Kind, HandlerTag>,
    pre: seq<HookId>,
    post: seq<HookId>)

  /**
   * The pending declaration of a rule: `From(...).On(...).When(...)`. Go's
   * builder also holds a pointer to its machine; here the machine is an
   * argument of `To` instead, so `To` always sees the machine's current rules.
   */
  datatype Builder = Builder(fromState: State, kind: Kind, guard: Option<GuardId>)

  /** Every failure the engine reports, one variant per distinct error site. */
  datatype Error =
    | NoTransitionsDefined(state: State)
    | NoValidTransition(kind: Kind, state: State)
    | NoHandlerRegistered(kind: Kind)
    | InvalidHandlerType(kind: Kind)
    | HandlerExecutionFailed(cause: Cause)
      /** A hook's own error, handed back unchanged. */
    | HookFailed(cause: Cause)
    | ConcurrentModification

  /** What each guard function answers for an event. */
  type GuardOracle = (GuardId, Event) -> bool

  /**
   * The shape `To` maintains: a state is a key only once a rule was declared
   * from it, and every rule is filed under its own source state.
   */
  predicate WellFormed(m: Machine) {
    forall s :: s in m.transitions ==>
      && |m.transitions[s]| > 0
      && forall i :: 0 <= i < |m.transitions[s]| ==> m.transitions[s][i].from == s
  }

  /** The rules declared from `s`; Go reads a missing key as an empty slice. */
  function RulesFrom(m: Machine, s: State): seq<TransitionRule> {
    if s in m.transitions then m.transitions[s] else []
  }

  function NewStateMachine(initial: State): (m: Machine)
    ensures m.state == initial
    ensures |m.transitions| == 0 && |m.handlers| == 0
    ensures m.pre == [] && m.post == []
    ensures WellFormed(m)
  {
    Machine(initial, map[], map[], [], [])
  }

  /** Go's builder starts with the zero event-type string and no guard. */
  function From(s: State): (b: Builder)
    ensures b.fromState == s && b.kind == "" && b.guard.None?
  {
    Builder(s, "", None)
  }

  function On(b: Builder, e: Event): (r: Builder)
    ensures r.kind == e.ty.kind
    ensures r.fromState == b.fromState && r.guard == b.guard
  {
    b.(kind := e.ty.kind)
  }

  /** Go's `When(nil)` clears the guard; a later call replaces an earlier one. */
  function When(b: Builder, guard: Option<GuardId>): (r: Builder)
    ensures r.guard == guard
    ensures r.fromState == b.fromState && r.kind == b.kind
  {
    b.(guard := guard)
  }

  /**
   * Files the builder's rule into the machine as it is when `To` runs, the
   * way Go's builder writes through its machine pointer. The builder itself
   * is left as it was, so Go's chained `.To(x).To(y)` is two calls with the
   * same builder.
   */
  function To(m: Machine, b: Builder, toState: State): (r: Machine)
    ensures b.fromState in r.transitions
    ensures r.transitions[b.fromState]
         == RulesFrom(m, b.fromState) + [TransitionRule(b.fromState, toState, b.kind, b.guard)]
    ensures forall s :: s != b.fromState ==> RulesFrom(r, s) == RulesFrom(m, s)
    ensures r.transitions.Keys == m.transitions.Keys + {b.fromState}
    ensures r.state == m.state && r.handlers == m.handlers
    ensures r.pre == m.pre && r.post == m.post
  {
    var rule := TransitionRule(b.fromState, toState, b.kind, b.guard);
    m.(transitions := m.transitions[b.fromState := RulesFrom(m, b.fromState) + [rule]])
  }

  /** The full chain `From(s).On(e).To(d)` files one unguarded rule at the end of s's list. */
  lemma DeclareAppendsRule(m: Machine, s: State, e: Event, d: State)
    ensures var m' := To(m, On(From(s), e), d);
      && m'.transitions[s] == RulesFrom(m, s) + [TransitionRule(s, d, e.ty.kind, None)]
      && (forall t :: t != s ==> RulesFrom(m', t) == RulesFrom(m, t))
      && m'.state == m.state && m'.handlers == m.handlers
  {
  }

  /** Only the last guard given before `To` is stored. */
  lemma LastGuardWins(m: Machine, b: Builder, g1: Option<GuardId>, g2: Option<GuardId>, d: State)
    ensures To(m, When(When(b, g1), g2), d) == To(m, When(b, g2), d)
    ensures To(m, When(When(b, g1), g2), d).transitions[b.fromState][|RulesFrom(m, b.fromState)|].guard == g2
  {
  }

  /** `b.To(x).To(y)`: one builder used twice files both rules, in call order. */
  lemma ChainedToFilesBoth(m: Machine, b: Builder, x: State, y: State)
    ensures To(To(m, b, x), b, y).transitions[b.fromState]
         == RulesFrom(m, b.fromState)
            + [TransitionRule(b.fromState, x, b.kind, b.guard), TransitionRule(b.fromState, y, b.kind, b.guard)]
  {
    var m1 := To(m, b, x);
    assert RulesFrom(m1, b.fromState) == RulesFrom(m, b.fromState) + [TransitionRule(b.fromState, x, b.kind, b.guard)];
  }

  lemma ToPreservesWellFormed(m: Machine, b: Builder, d: State)
    requires WellFormed(m)
    ensures WellFormed(To(m, b, d))
  {
  }

  /** A rule is eligible for an event when the kinds agree and its guard, if any, accepts. */
  predicate Matches(rule: TransitionRule, e: Event, guards: GuardOracle) {
    rule.kind == e.ty.kind && (rule.guard.None? || guards(rule.guard.value, e))
  }

  /** `rules[i]` is eligible and no earlier rule is. */
  predicate IsFirstMatch(rules: seq<TransitionRule>, e: Event, guards: GuardOracle, i: int) {
    && 0 <= i < |rules|
    && Matches(rules[i], e, guards)
    && forall j :: 0 <= j < i ==> !Matches(rules[j], e, guards)
  }

  /** The index of the first eligible rule, scanning in declaration order. */
  function FirstMatch(rules: seq<TransitionRule>, e: Event, guards: GuardOracle): (r: Option<nat>)
    ensures r.Some? ==> IsFirstMatch(rules, e, guards, r.value)
    ensures r.None? ==> forall j :: 0 <= j < |rules| ==> !Matches(rules[j], e, guards)
  {
    if |rules| == 0 then None
    else if Matches(rules[0], e, guards) then Some(0)
    else match FirstMatch(rules[1..], e, guards)
      case None => None
      case Some(i) => Some(i + 1)
  }

  lemma FirstMatchIsUnique(rules: seq<TransitionRule>, e: Event, guards: GuardOracle, i: int, j: int)
    requires IsFirstMatch(rules, e, guards, i) && IsFirstMatch(rules, e, guards, j)
    ensures i == j
  {
  }

  /**
   * Selects the rule a dispatch of `e` would take from the current state:
   * the first eligible rule in declaration order.
   */
  function FindValidTransition(m: Machine, e: Event, guards: GuardOracle): (r: Result<TransitionRule, Error>)
    ensures r == Err(NoTransitionsDefined(m.state)) <==> m.state !in m.transitions
    ensures r == Err(NoValidTransition(e.ty.kind, m.state)) <==>
      && m.state in m.transitions
      && forall j :: 0 <= j < |m.transitions[m.state]| ==> !Matches(m.transitions[m.state][j], e, guards)
    ensures r.Err? ==> r.error in {NoTransitionsDefined(m.state), NoValidTransition(e.ty.kind, m.state)}
    ensures r.Ok? ==>
      && m.state in m.transitions
      && exists i :: IsFirstMatch(m.transitions[m.state], e, guards, i) && r.value == m.transitions[m.state][i]
  {
    if m.state !in m.transitions then Err(NoTransitionsDefined(m.state))
    else
      var rules := m.transitions[m.state];
      match FirstMatch(rules, e, guards)
      case None => Err(NoValidTransition(e.ty.kind, m.state))
      case Some(i) => Ok(rules[i])
  }
}
